=== FILE: README.md ===
# Task management backend: assignment engine and role-based authorization

This project models the core of a Spring Boot task-management backend in Dafny.
Users have one of three roles: ADMIN, MANAGER or USER. Managers create tasks and
assign them to users. Users see and progress the tasks assigned to them. Anyone with
access to a task can comment on it.

The model covers:

- the three assignment strategies (MANUAL, RANDOM, LEAST_LOADED) and the registry
  that resolves an assignment type to its strategy;
- the task, comment and user services, with every access rule and error path;
- the controllers' method-level role gates, status codes and messages;
- the bearer-token filter and the security chain that decides which requests reach a
  controller;
- the start-up seeding of an administrator;
- the exception handler that maps each error kind to an HTTP status and envelope;
- the response projections (DTO mappers) and the user queries the services use.

Persistence is a `Store`: three tables held as sequences in row order (users, tasks,
comments) and the three identity counters. Each service call is a pure function from a
store, the request's security context and the input to either a new store with an
output, or an error. The error arm carries no store. This models the transactional
rollback: a write made before a later check fails leaves no trace. `Domain.Valid` is
the store invariant (unique ids and emails, ids below their counters, every reference
names an existing row). `StoreInvariants` proves that each write keeps it.

The modules follow the source's packages:

- `AssignmentStrategies` and `StrategyFactory`: the strategies and their registry.
- `TaskService`, `CommentService`, `UserService`, `SecurityUtils`, `UserRepository`:
  the services and their queries. `Policy` holds the access predicates they share.
- `TaskController`, `CommentController`, `UserController`, `AuthController` and
  `Endpoints`: the HTTP endpoints.
- `JwtFilter`, `SecurityConfig`: the security chain.
- `DataInitializer`, `ExceptionHandler`, `Mappers`.
- `Wrappers`, `Tables`, `Domain`: option and result types, generic table operations,
  and the entities.

Foreign code enters as parameters:

- the random source is a `draw: nat`;
- the password encoder is a pair of functions;
- token parsing, user-details loading and token validation are a `TokenOracle`;
- the authentication manager and token generator are a `LoginOracle`;
- the clock is a `now` timestamp.

Some behaviours of the code are worth stating up front, because the model keeps them
as they are:

- The bearer-token filter ignores a token it cannot parse: the catch at
  `JwtAuthenticationFilter.java:47-49` logs "Error extracting username from token"
  with the exception's message, and the request goes on. Yet the diagnostic line at
  `JwtAuthenticationFilter.java:42` throws on any token shorter than ten characters,
  before that try block, and the request is aborted. `SecurityConfig.Process` is the chain as the program runs it;
  `SecurityConfig.ProcessGuarded` is the chain with that line made safe. The two differ
  only on short tokens. This is recorded under Findings.
- Besides the 401, 403, 404 and 400 answers of the service exceptions, the code answers
  500 when the authenticated name has no user row: `SecurityUtils.java:40` throws a
  plain runtime exception, which the catch-all handler at
  `GlobalExceptionHandler.java:202-214` turns into "An unexpected error occurred".
- Only login tells a deactivated account apart: the handler at
  `GlobalExceptionHandler.java:109-121` answers 403 for a disabled account. The
  bearer-token filter (`JwtAuthenticationFilter.java:54-74`) does not read the active
  flag itself; it relies on the user-details service and token validation, which are
  oracles here.
- Comment creation has two checks. The gate at `CommentController.java:33` admits
  MANAGER and USER. The service's check at `CommentServiceImpl.java:132-143` then also
  requires the caller to be the task's creator or assignee (or an ADMIN, whom the gate
  has already refused).

## Model

| member | source | states |
|---|---|---|
| AssignmentStrategies.GetType | src/main/java/com/example/apiproject/service/strategy/ManualAssignmentStrategy.java:23-25 | each strategy reports its own assignment type (manual MANUAL, random RANDOM, least loaded LEAST_LOADED), which is the key the registry files it under |
| AssignmentStrategies.ManualAssign | src/main/java/com/example/apiproject/service/strategy/ManualAssignmentStrategy.java:28-46 | a missing user id is a bad request; an unknown user is not found; a user without role USER is a bad request. Assignment succeeds exactly when the requested user exists with role USER, and then the task is assigned to exactly that user and nothing else about it changes |
| AssignmentStrategies.ManualIgnoresActiveFlag | src/main/java/com/example/apiproject/service/strategy/ManualAssignmentStrategy.java:35-44 | the active flag is never consulted: changing any users' active flags leaves the outcome of manual assignment unchanged, so a deactivated USER is still accepted |
| AssignmentStrategies.NextInt | src/main/java/com/example/apiproject/service/strategy/RandomAssignmentStrategy.java:48 | the random index is always a valid position in the candidate list |
| AssignmentStrategies.RandomAssign | src/main/java/com/example/apiproject/service/strategy/RandomAssignmentStrategy.java:36-53 | fails, with the "no active users" bad request, exactly when there is no active USER; otherwise assigns the task to one of the active USERs |
| AssignmentStrategies.RandomReachesEveryCandidate | src/main/java/com/example/apiproject/service/strategy/RandomAssignmentStrategy.java:40-50 | every active USER is chosen by some random draw, so no candidate is excluded |
| AssignmentStrategies.Load | src/main/java/com/example/apiproject/service/strategy/LeastLoadedAssignmentStrategy.java:51-53 | a user's load is zero exactly when every task assigned to them is DONE, and never exceeds the number of tasks |
| AssignmentStrategies.Loads | src/main/java/com/example/apiproject/service/strategy/LeastLoadedAssignmentStrategy.java:50-53 | one load per candidate, position by position in candidate order |
| AssignmentStrategies.MinFrom | src/main/java/com/example/apiproject/service/strategy/LeastLoadedAssignmentStrategy.java:50-54 | continuing the minimum reduction from the first minimum of a prefix ends at the first minimum of the whole list |
| AssignmentStrategies.StreamMin | src/main/java/com/example/apiproject/service/strategy/LeastLoadedAssignmentStrategy.java:50-54 | the minimum is empty exactly for an empty list; otherwise it is a position whose load is at most every load and strictly below every earlier load |
| AssignmentStrategies.FirstMinimumIsUnique | src/main/java/com/example/apiproject/service/strategy/LeastLoadedAssignmentStrategy.java:50-54 | the tie-break determines the choice: only one position is the first minimum |
| AssignmentStrategies.LeastLoadedAssign | src/main/java/com/example/apiproject/service/strategy/LeastLoadedAssignmentStrategy.java:38-59 | fails exactly when there is no active USER; otherwise assigns the first candidate with the least load, so the "unable to find suitable user" fallback can never occur |
| AssignmentStrategies.LeastLoadedChoiceIsMinimal | src/main/java/com/example/apiproject/service/strategy/LeastLoadedAssignmentStrategy.java:50-56 | the chosen assignee is a candidate whose load is at most that of any other candidate |
| AssignmentStrategies.LeastLoadedExample | src/main/java/com/example/apiproject/service/strategy/LeastLoadedAssignmentStrategy.java:46-56 | three active users with 2, 0 and 1 unfinished tasks (a DONE task does not count): the second user is chosen |
| AssignmentStrategies.AutomaticIgnoresUserId | src/main/java/com/example/apiproject/service/strategy/RandomAssignmentStrategy.java:36-53 | the random and least-loaded strategies give the same outcome whatever user id was requested |
| AssignmentStrategies.Assign | src/main/java/com/example/apiproject/service/strategy/TaskAssignmentStrategy.java:14-30 | every strategy changes only the task's assignee, and any assignee it picks exists with role USER |
| StrategyFactory.BuildRegistry | src/main/java/com/example/apiproject/service/strategy/TaskAssignmentStrategyFactory.java:34-39 | building the registry succeeds exactly when no two strategies report the same type, and fails with a duplicate-key error otherwise. On success its keys are exactly the reported types and each maps to a registered strategy reporting that type |
| StrategyFactory.GetStrategy | src/main/java/com/example/apiproject/service/strategy/TaskAssignmentStrategyFactory.java:48-60 | a null type and an unregistered type are bad requests, the latter naming the type; otherwise the result is the registered strategy, which reports the requested type |
| StrategyFactory.EveryTypeResolves | src/main/java/com/example/apiproject/service/strategy/TaskAssignmentStrategyFactory.java:34-60 | with the three strategies registered, in any order, every assignment type resolves to the strategy that reports it |
| StrategyFactory.RegistryIgnoresOrder | src/main/java/com/example/apiproject/service/strategy/TaskAssignmentStrategyFactory.java:34-39 | the registry depends only on which strategies are registered, not on the order they are injected in |
| SecurityUtils.GetCurrentUser | src/main/java/com/example/apiproject/util/SecurityUtils.java:32-41 | a missing or unauthenticated identity is unauthorized. Otherwise the result is the stored user whose email is the identity's name, and a name with no user row is an unexpected (500) error |
| UserRepository.FindByEmail | src/main/java/com/example/apiproject/repository/UserRepository.java:21 | finds a stored user with that email, and finds none exactly when no user has it |
| UserRepository.FindByEmailIsTheOnlyMatch | src/main/java/com/example/apiproject/repository/UserRepository.java:21 | with unique emails, looking up a stored user's email returns that user |
| UserRepository.FindAllByRoleAndIsActiveTrue | src/main/java/com/example/apiproject/repository/UserRepository.java:26 | the result holds exactly the stored users that are active and have the role |
| UserRepository.AllActiveOfRole | src/main/java/com/example/apiproject/repository/UserRepository.java:26 | when every user is active with the role, the query returns the whole table in storage order |
| UserRepository.FindByFilters | src/main/java/com/example/apiproject/repository/UserRepository.java:34-40 | the result holds exactly the users matching each filter given; with no filters it is the whole table; with a role and active=true it equals the active-by-role query |
| Mappers.ToResponseDTO | src/main/java/com/example/apiproject/mapper/TaskMapper.java:18-46 | the task's own fields are copied; a null creator, assignee or updater leaves both its id and its name null; otherwise the name is the referenced user's name |
| Mappers.ToProfileDTO | src/main/java/com/example/apiproject/mapper/UserMapper.java:20-26 | the profile carries the user's id, name, email and role |
| Mappers.ToAdminDTO | src/main/java/com/example/apiproject/mapper/UserMapper.java:32-40 | the admin view carries id, name, email, role, active flag and creation time |
| Mappers.ToSummaryDTO | src/main/java/com/example/apiproject/mapper/UserMapper.java:46-51 | the summary carries id, name and email |
| Mappers.ProjectionsHidePassword | src/main/java/com/example/apiproject/mapper/UserMapper.java:20-51 | no user projection depends on the password: users that differ only in their password project alike |
| Mappers.ProjectionsNest | src/main/java/com/example/apiproject/mapper/UserMapper.java:20-51 | the summary and the profile are both restrictions of the admin view |
| TaskService.CreateTask | src/main/java/com/example/apiproject/service/TaskServiceImpl.java:49-81 | creation succeeds exactly when the caller resolves and any requested assignee exists with role USER; an unknown assignee is not found and a non-USER one a bad request. On success exactly one task is added, under the next id, OPEN, created by the caller, with the request's fields, and no other table changes |
| TaskService.AssignTask | src/main/java/com/example/apiproject/service/TaskServiceImpl.java:84-104 | an unknown task is not found, then a strategy-lookup failure is passed on. Otherwise the requested strategy decides: its failure is passed on, and on its success the task it returns is the one saved. Only that task's assignee changes, to a user with role USER, every other task is as before, and the reply shows the saved task |
| TaskService.GetTaskById | src/main/java/com/example/apiproject/service/TaskServiceImpl.java:106-132 | an unknown task is not found before the identity is checked. Reading succeeds exactly for an ADMIN, a MANAGER or the assignee USER, and any other USER is forbidden |
| TaskService.UpdateTask | src/main/java/com/example/apiproject/service/TaskServiceImpl.java:134-191 | an ADMIN is always forbidden. A MANAGER overwrites every field given and becomes the updater. The assignee USER may change status only; a request that also names another field fails as a whole. Id, creator, assignee and creation time never change, and no other task or table does |
| TaskService.EmptyUserUpdateChangesNothing | src/main/java/com/example/apiproject/service/TaskServiceImpl.java:166-187 | an update with no fields by the assignee USER succeeds and leaves the store exactly as it was |
| TaskService.MixedUserUpdateRejected | src/main/java/com/example/apiproject/service/TaskServiceImpl.java:166-183 | the assignee USER sending a status together with a title is refused with "only update task status", so neither change is kept |
| TaskService.VisibleTasks | src/main/java/com/example/apiproject/service/TaskServiceImpl.java:198-209 | the listing holds exactly the stored tasks the caller may view that match the filters; a USER's assignee filter is ignored; an unfiltered ADMIN or MANAGER sees the whole table |
| TaskService.GetAllTasks | src/main/java/com/example/apiproject/service/TaskServiceImpl.java:193-213 | after the caller resolves, every viewable task matching the filters is listed and nothing else is |
| CommentService.MapToDTO | src/main/java/com/example/apiproject/service/CommentServiceImpl.java:148-156 | the comment's fields and author id are copied; the author name is present exactly when the author row exists, and it is that user's name |
| CommentService.VerifyTaskAccess | src/main/java/com/example/apiproject/service/CommentServiceImpl.java:132-143 | access is granted exactly to an ADMIN, the task's creator or its assignee; anyone else is forbidden |
| CommentService.CreateComment | src/main/java/com/example/apiproject/service/CommentServiceImpl.java:40-63 | an unknown task is not found, then identity, then access. On success exactly one comment is added, under the next id, by the caller, on that task, and users and tasks are unchanged |
| CommentService.CommentsOfTask | src/main/java/com/example/apiproject/service/CommentServiceImpl.java:78 | the task's comments are exactly the stored comments on that task |
| CommentService.GetCommentsByTaskId | src/main/java/com/example/apiproject/service/CommentServiceImpl.java:65-84 | listing passes the same checks as creation, then shows every comment of the task and no other |
| CommentService.DeleteComment | src/main/java/com/example/apiproject/service/CommentServiceImpl.java:86-112 | an unknown comment is not found and a comment of another task a bad request, both before identity. Only the author or an ADMIN may delete. Deletion removes exactly that comment and nothing else |
| CommentService.DeletedCommentNotListed | src/main/java/com/example/apiproject/service/CommentServiceImpl.java:78-111 | after a successful delete, the comment is absent from its task's listing |
| CommentService.ManagerViewsButCannotComment | src/main/java/com/example/apiproject/service/CommentServiceImpl.java:132-143 | a MANAGER who neither created nor is assigned a task may read the task but is forbidden to comment on it |
| UserService.GetAllUsers | src/main/java/com/example/apiproject/service/UserServiceImpl.java:36-48 | a MANAGER gets summaries of exactly the active USERs; any other resolved caller gets full views of exactly the users matching the filters |
| UserService.ManagerListingIgnoresFilters | src/main/java/com/example/apiproject/service/UserServiceImpl.java:39-42 | a MANAGER's listing is the same whatever filters are given |
| UserService.UpdateUserRole | src/main/java/com/example/apiproject/service/UserServiceImpl.java:51-59 | an unknown user is not found; otherwise only that user's role changes, and no other user, task or comment does |
| UserService.RoleUpdateCanBreakAssignment | src/main/java/com/example/apiproject/service/UserServiceImpl.java:51-59 | a role change does not look at current assignments: a task can end up assigned to a user who no longer has role USER |
| UserService.GetUserProfile | src/main/java/com/example/apiproject/service/UserServiceImpl.java:62-67 | fails exactly when no user has the email; otherwise it is the profile of a user with that email |
| UserService.UpdatePassword | src/main/java/com/example/apiproject/service/UserServiceImpl.java:70-85 | an unknown email is not found; a current password that does not match the stored hash is unauthorized. Otherwise only that user's password changes, to the encoding of the new one |
| UserService.ToggleUserStatus | src/main/java/com/example/apiproject/service/UserServiceImpl.java:88-96 | an unknown user is not found; otherwise only that user's active flag changes, to the value given |
| UserService.DeactivatedUserIsNoCandidate | src/main/java/com/example/apiproject/service/UserServiceImpl.java:88-96 | after deactivation the user is no longer a candidate of the automatic strategies |
| ExceptionHandler.FieldErrorMap | src/main/java/com/example/apiproject/exception/GlobalExceptionHandler.java:31-37 | the validation map's keys are exactly the failing fields, and each maps to the last message reported for it |
| ExceptionHandler.LastMessageWins | src/main/java/com/example/apiproject/exception/GlobalExceptionHandler.java:33-37 | two messages for one field: the later one is reported |
| ExceptionHandler.Handle | src/main/java/com/example/apiproject/exception/GlobalExceptionHandler.java:27-214 | every error becomes a failure envelope with no data. It carries the exception's message or the handler's fixed text, and carries field errors exactly for validation failures |
| ExceptionHandler.StatusFollowsKind | src/main/java/com/example/apiproject/exception/GlobalExceptionHandler.java:46-214 | the status depends on the error's kind alone: 401 unauthenticated, 403 forbidden, 404 not found, 400 bad request, 500 anything else |
| ExceptionHandler.UnexpectedHidesDetail | src/main/java/com/example/apiproject/exception/GlobalExceptionHandler.java:202-214 | an unexpected error's reply is the same whatever its internal message |
| ExceptionHandler.DisabledDistinctFromBadCredentials | src/main/java/com/example/apiproject/exception/GlobalExceptionHandler.java:90-121 | a deactivated account and wrong credentials get different statuses and messages |
| JwtFilter.BearerToken | src/main/java/com/example/apiproject/security/JwtAuthenticationFilter.java:33-41 | a token is found exactly when the header is present and starts with "Bearer ", and the header is the prefix followed by the token |
| JwtFilter.Authenticate | src/main/java/com/example/apiproject/security/JwtAuthenticationFilter.java:54-74 | with an identity already present or no username, nothing happens. The request aborts exactly when loading the named user fails. An identity is set only from a loaded user whose token validates |
| JwtFilter.DoFilterInternal | src/main/java/com/example/apiproject/security/JwtAuthenticationFilter.java:28-79 | as written: without a bearer token the request passes unchanged; a bearer token shorter than ten characters always aborts the request; a longer one behaves as the corrected filter |
| JwtFilter.DoFilterGuarded | src/main/java/com/example/apiproject/security/JwtAuthenticationFilter.java:45-77 | corrected: an existing identity is kept; the request aborts only when loading the named user fails; an identity is set only for a validated token |
| JwtFilter.GuardedFilterIdempotent | src/main/java/com/example/apiproject/security/JwtAuthenticationFilter.java:54 | running the filter again on its own output changes nothing |
| JwtFilter.NoBearerNoIdentity | src/main/java/com/example/apiproject/security/JwtAuthenticationFilter.java:33-41 | a request without a bearer header passes with no identity |
| JwtFilter.ShortTokenAborts | src/main/java/com/example/apiproject/security/JwtAuthenticationFilter.java:42 | the header "Bearer abc" aborts the request as written, while the corrected filter lets it through unauthenticated |
| SecurityConfig.Process | src/main/java/com/example/apiproject/config/SecurityConfig.java:30-52 | the chain as the program runs it: every request starts with no identity. It aborts exactly when the filter as written aborts, so always on a bearer token shorter than ten characters, even on a public path. It is refused exactly when the path is protected and no authenticated identity results. A dispatched identity comes from a validated token |
| SecurityConfig.ProcessGuarded | src/main/java/com/example/apiproject/config/SecurityConfig.java:30-52 | the same chain over the corrected filter: it aborts only when loading the named user fails, and otherwise obeys the same path rules |
| SecurityConfig.ChainsAgreeOffShortTokens | src/main/java/com/example/apiproject/security/JwtAuthenticationFilter.java:39-50 | without a bearer token, or with one of ten or more characters, the program's chain and the corrected chain decide alike |
| SecurityConfig.ShortTokenBlocksLogin | src/main/java/com/example/apiproject/security/JwtAuthenticationFilter.java:42 | a login request with the header "Bearer abc" is aborted by the program's chain although login is public, while the corrected chain dispatches it with no identity |
| SecurityConfig.RegisterNeedsAuthentication | src/main/java/com/example/apiproject/config/SecurityConfig.java:41-46 | registration is not a public path, so without a token it never reaches its controller |
| SecurityConfig.PublicPathsNeedNoToken | src/main/java/com/example/apiproject/config/SecurityConfig.java:41-42 | login and the documentation paths are dispatched without any token, by both chains |
| SecurityConfig.ProtectedPathNeedsValidToken | src/main/java/com/example/apiproject/config/SecurityConfig.java:44-46 | in both chains, a protected path is dispatched exactly when the filter yields an authenticated identity |
| DataInitializer.AdminCount | src/main/java/com/example/apiproject/config/DataInitializer.java:33-35 | the count of ADMIN users is zero exactly when there is no ADMIN |
| DataInitializer.InitDatabase | src/main/java/com/example/apiproject/config/DataInitializer.java:30-56 | with an ADMIN present nothing changes; otherwise exactly one active ADMIN with the configured name, email and encoded password is added. Either way an ADMIN exists afterwards |
| DataInitializer.InitDatabaseIdempotent | src/main/java/com/example/apiproject/config/DataInitializer.java:33-45 | seeding a second time, with any configuration or clock, changes nothing |
| AuthController.Register | src/main/java/com/example/apiproject/controller/AuthController.java:50-88 | a non-ADMIN is denied with 403. A taken email gives 400 and stores nothing. Otherwise exactly one active user is added with 201, under the next id, with the encoded password and the requested role (USER when none is given) |
| AuthController.RegisterKeepsEmailsUnique | src/main/java/com/example/apiproject/controller/AuthController.java:56-77 | registration keeps emails unique, and the new user is the one found by its email |
| AuthController.SecondRegistrationRefused | src/main/java/com/example/apiproject/controller/AuthController.java:56-64 | registering the same email twice: the second attempt gets 400 and stores nothing |
| AuthController.Login | src/main/java/com/example/apiproject/controller/AuthController.java:94-120 | login succeeds exactly when authentication succeeds, with 200 and a token for the authenticated name; otherwise the handler's reply for the authentication error |
| AuthController.DeactivatedLoginIsDistinct | src/main/java/com/example/apiproject/controller/AuthController.java:99-102 | logging in to a deactivated account gives 403 with the deactivation message; wrong credentials give 401 with "Invalid credentials" |
| TaskController.CreateTask | src/main/java/com/example/apiproject/controller/TaskController.java:49-68 | non-MANAGERs get 403 before the service runs; otherwise success is the service's success, answered 201 with the new task, and a service failure is the handler's reply for the service's error, with the store kept |
| TaskController.AssignTask | src/main/java/com/example/apiproject/controller/TaskController.java:89-112 | non-MANAGERs get 403; on success, 200 with a message naming the strategy used and the saved task; after the gate, a service failure is the handler's reply for the service's error, with the store kept |
| TaskController.GetAllTasks | src/main/java/com/example/apiproject/controller/TaskController.java:121-145 | no role gate: the caller's name is logged first, so a missing authentication is answered 500; otherwise the reply is the service's listing with 200, or the handler's reply for the service's error. The store is untouched |
| TaskController.GetTaskById | src/main/java/com/example/apiproject/controller/TaskController.java:154-169 | no role gate: the caller's name is logged first, so a missing authentication is answered 500; otherwise success is the service's success, and a failure is the handler's reply for the service's error |
| TaskController.UpdateTask | src/main/java/com/example/apiproject/controller/TaskController.java:180-197 | no role gate: the caller's name is logged first, so a missing authentication is answered 500 with nothing stored; otherwise the service decides, and a failure leaves the store unchanged and is the handler's reply for the service's error |
| TaskController.OnlyManagersCreateOrAssign | src/main/java/com/example/apiproject/controller/TaskController.java:49-94 | any caller other than a MANAGER gets 403 from creation and assignment and changes nothing |
| CommentController.CreateComment | src/main/java/com/example/apiproject/controller/CommentController.java:32-45 | only a MANAGER or USER passes the gate; success is the service's success, answered 201, and after the gate a service failure is the handler's reply for the service's error, with the store kept |
| CommentController.GetComments | src/main/java/com/example/apiproject/controller/CommentController.java:51-69 | no role gate: the service's listing with 200, a service failure is the handler's reply for the service's error, and the store is untouched |
| CommentController.DeleteComment | src/main/java/com/example/apiproject/controller/CommentController.java:75-87 | success is the service's success, answered 200 with no payload; a failure keeps the store |
| CommentController.AdminMayReadButNotComment | src/main/java/com/example/apiproject/controller/CommentController.java:32-69 | an ADMIN passes the service's access check and may read any task's comments, yet the gate refuses their comments |
| UserController.CallerEmail | src/main/java/com/example/apiproject/controller/UserController.java:63-64 | the caller's email is the identity's name; a missing identity is an unexpected error |
| UserController.GetAllUsers | src/main/java/com/example/apiproject/controller/UserController.java:37-53 | only an ADMIN or a MANAGER may list users; no filter is passed on, after the gate a service failure is the handler's reply for the service's error, and the store is untouched |
| UserController.GetCurrentUserProfile | src/main/java/com/example/apiproject/controller/UserController.java:61-77 | the caller's own profile, whose email is the identity's name; a missing identity is answered 500 and an unknown email with the handler's reply for the service's not-found error |
| UserController.UpdatePassword | src/main/java/com/example/apiproject/controller/UserController.java:86-102 | success is the service's success for the caller's own email, with the service's message; a missing identity is answered 500, a service failure (unknown user, wrong current password) is the handler's reply for that error, and a failure keeps the store |
| UserController.UpdateUserRole | src/main/java/com/example/apiproject/controller/UserController.java:111-129 | a non-ADMIN gets 403 and changes nothing; otherwise the service's outcome, 200 on success and the handler's reply for the service's error on failure, with the store kept |
| UserController.ToggleUserStatus | src/main/java/com/example/apiproject/controller/UserController.java:138-159 | a non-ADMIN gets 403; on success the message says whether the user was activated or deactivated; after the gate a service failure is the handler's reply for the service's error, with the store kept |
| UserController.ManagerListsButCannotAdminister | src/main/java/com/example/apiproject/controller/UserController.java:37-159 | a MANAGER can list users but every role or status change is refused, with the store unchanged |
| StoreInvariants.CreateTaskKeepsValid | src/main/java/com/example/apiproject/service/TaskServiceImpl.java:49-81 | task creation keeps the store invariant: unique ids and emails, ids below their counters, references to existing rows |
| StoreInvariants.AssignTaskKeepsValid | src/main/java/com/example/apiproject/service/TaskServiceImpl.java:84-104 | assignment keeps the store invariant |
| StoreInvariants.UpdateTaskKeepsValid | src/main/java/com/example/apiproject/service/TaskServiceImpl.java:134-191 | a task update keeps the store invariant |
| StoreInvariants.CreateCommentKeepsValid | src/main/java/com/example/apiproject/service/CommentServiceImpl.java:40-63 | comment creation keeps the store invariant |
| StoreInvariants.DeleteCommentKeepsValid | src/main/java/com/example/apiproject/service/CommentServiceImpl.java:86-112 | comment deletion keeps the store invariant |
| StoreInvariants.UpdateUserRoleKeepsValid | src/main/java/com/example/apiproject/service/UserServiceImpl.java:51-59 | a role change keeps the store invariant |
| StoreInvariants.ToggleUserStatusKeepsValid | src/main/java/com/example/apiproject/service/UserServiceImpl.java:88-96 | a status change keeps the store invariant |
| StoreInvariants.UpdatePasswordKeepsValid | src/main/java/com/example/apiproject/service/UserServiceImpl.java:70-85 | a password change keeps the store invariant |
| StoreInvariants.RegisterKeepsValid | src/main/java/com/example/apiproject/controller/AuthController.java:50-88 | registration, refused or not, keeps the store invariant |
| StoreInvariants.InitDatabaseKeepsValid | src/main/java/com/example/apiproject/config/DataInitializer.java:30-56 | seeding keeps the store invariant when the configured email is not held by a non-ADMIN |

## Left out

- Paging and sorting of the listings (page and size, sort field and direction) are not modelled. Listings are whole, in storage order.
- `AssignmentStrategies.LeastLoadedAssign` and `AssignmentStrategies.RandomAssign`: the candidates come in storage order. The query `findAllByRoleAndIsActiveTrue` (UserRepository.java:26) has no ORDER BY, so the program gets whatever order the database returns, and that order decides which user a draw picks and which user wins a tie on load.
- The HTTP layer is not modelled: request binding, bean validation of request bodies, and the envelope's timestamp. `Validation` errors enter as a given list of field errors.
- A missing required request parameter (assignment type, new role, active flag) is rejected by the framework before the controller runs. The controllers take these parameters as non-optional values.
- The entities' `updatedAt` timestamps are not modelled. Creation times come from a `now` parameter.
- Logging is not modelled, except the diagnostic line of the bearer-token filter, whose crash on short tokens is a Finding.
- The JWT library (token signing, parsing, expiry), the user-details service, the authentication manager and the password hash are foreign code. They enter as the oracle parameters `TokenOracle`, `LoginOracle` and `PasswordEncoder`.
- The statuses for an exception escaping the filter and for an unauthenticated request to a protected path are not modelled. Both are framework defaults with no handler in this code, so `SecurityConfig.Process` and `SecurityConfig.ProcessGuarded` only report `FilterAborted` or `Unauthenticated`.
- `java.util.Random` is the `draw` parameter. Its uniformity is not modelled; `AssignmentStrategies.RandomReachesEveryCandidate` states reachability only.
- The message of a resource-not-found exception is abstracted to the resource name ("User", "Task", "Comment"). Its exception class is not part of this model.
- The entity classes and their column defaults are not part of this model. New users (registration, seeding) are taken as active. Email uniqueness is the store invariant `Domain.Valid`; no other constraint is modelled.
- The comment mapper class, the intern-task entity, the OpenAPI and application configuration and the welcome endpoint are not modelled. The comment service maps comments with its own private method, which is modelled.
- The comment service's private current-user lookup behaves like the shared one and is modelled by `SecurityUtils.GetCurrentUser`.
- The task repository's query methods are not part of this model. The task listing follows the calls the task service makes, with the filter semantics the user repository's `findByFilters` query uses.
- The user controller's listing calls a service method without filters, which the service class does not declare. The model passes no filters to `UserService.GetAllUsers`.
- `CommentService.MapToDTO`: the author name is optional. With a consistent store the author always exists (`Domain.Valid`), and the name is then present.
- `DataInitializer.InitDatabase` inserts even when a non-ADMIN user already has the configured email. The database's unique constraint would then reject the insert, and that failure is not modelled. `StoreInvariants.InitDatabaseKeepsValid` requires the email to be free.
- `UserController.CallerEmail`: a missing authentication throws a null-pointer exception, which carries no message; it is modelled as an unexpected error with an empty message, which the handler replaces by its fixed text anyway. The task endpoints without a role gate (`TaskController.GetAllTasks`, `TaskController.GetTaskById`, `TaskController.UpdateTask`) log the caller's name before the service runs and fail the same way, through `Endpoints.NullAuthentication`. The security chain never lets a request without authentication reach a protected path (`SecurityConfig.ProtectedPathNeedsValidToken`), so this reply is not reached in the running program.

## Findings

| source | as written | input that shows it | evidently intended | confidence | as-written member | corrected member |
|---|---|---|---|---|---|---|
| src/main/java/com/example/apiproject/security/JwtAuthenticationFilter.java:42 | a diagnostic line prints the first ten characters of every bearer token, before the try block | header `Authorization: Bearer abc`: taking ten characters of a three-character token throws, and the request fails inside the filter | a malformed or short token is ignored and the request proceeds unauthenticated, like any token that does not parse | high (not executed) | JwtFilter.DoFilterInternal, JwtFilter.ShortTokenAborts, SecurityConfig.Process, SecurityConfig.ShortTokenBlocksLogin | JwtFilter.DoFilterGuarded, SecurityConfig.ProcessGuarded |

=== FILE: auth_controller.dfy ===
/** Registration, which only an ADMIN may perform, and login, which issues a token. */
module AuthController {
  import opened Wrappers
  import opened Tables
  import opened Domain
  import opened ExceptionHandler
  import opened Endpoints
  import UserRepository

  const EmailInUse := "Email already in use"
  const Registered := "User registered successfully"
  const LoginSucceeded := "Authentication successful"
  const TokenIssued := "Login successful"

  /** The registration request; a missing role means USER. */
  datatype RegisterRequest = RegisterRequest(name: string, email: string, password: string, role: Option<Role>)

  /** The login reply's payload. */
  datatype AuthResponse = AuthResponse(token: string, message: string)

  /** The foreign login machinery: the authentication manager yields the principal's
      name or fails (with bad credentials or a disabled account), and the token
      generator signs a token for a name. */
  datatype LoginOracle = LoginOracle(
    authenticate: (string, string) -> Result<string, Error>,
    generateToken: string -> string)

  /** The user row registration inserts: a new, active user under the next user id. */
  function NewUser(s: Store, req: RegisterRequest, encode: string -> string, now: Timestamp): User {
    User(s.nextUserId, req.name, req.email, encode(req.password), req.role.GetOr(USER), true, now)
  }

  /** POST /api/auth/register: ADMIN only; a taken email gives 400 and stores nothing;
      otherwise the user is inserted with the encoded password and 201 is sent. */
  function Register(s: Store, ctx: SecurityContext, req: RegisterRequest, encode: string -> string, now: Timestamp)
    : (out: Response<()>)
    ensures !HasRole(ctx, ADMIN) ==> out == Response(s, Handle(AccessDenied))
    ensures HasRole(ctx, ADMIN) && UserRepository.FindByEmail(s.users, req.email).Some? ==>
      out == Response(s, Reply(400, ApiResponse(false, EmailInUse, None, None)))
    ensures out.reply.body.success <==>
      HasRole(ctx, ADMIN) && forall u :: u in s.users ==> u.email != req.email
    ensures out.reply.body.success ==>
      && out.reply == Reply(201, ApiResponse(true, Registered, None, None))
      && |out.store.users| == |s.users| + 1 && out.store.users[..|s.users|] == s.users
      && var u := out.store.users[|s.users|];
      && u.id == s.nextUserId && u.name == req.name && u.email == req.email
      && u.password == encode(req.password) && u.isActive
      && (req.role.Some? ==> u.role == req.role.value)
      && (req.role.None? ==> u.role == USER)
    ensures out.reply.body.success ==>
      out.store.tasks == s.tasks && out.store.comments == s.comments && out.store.nextUserId == s.nextUserId + 1
    ensures !out.reply.body.success ==> out.store == s
  {
    if !HasRole(ctx, ADMIN) then Denied(s)
    else if UserRepository.FindByEmail(s.users, req.email).Some? then
      Response(s, Reply(400, ApiResponse(false, EmailInUse, None, None)))
    else
      var u := NewUser(s, req, encode, now);
      Response(s.(users := s.users + [u], nextUserId := s.nextUserId + 1),
               Reply(201, ApiResponse(true, Registered, None, None)))
  }

  /** Registration keeps emails unique, so a registered user is found by email. */
  lemma RegisterKeepsEmailsUnique(s: Store, ctx: SecurityContext, req: RegisterRequest, encode: string -> string,
                                  now: Timestamp)
    requires UniqueKeys(s.users, UserEmail)
    ensures UniqueKeys(Register(s, ctx, req, encode, now).store.users, UserEmail)
    ensures Register(s, ctx, req, encode, now).reply.body.success ==>
      UserRepository.FindByEmail(Register(s, ctx, req, encode, now).store.users, req.email)
        == Some(NewUser(s, req, encode, now))
  {
    var out := Register(s, ctx, req, encode, now);
    if out.reply.body.success {
      var users' := out.store.users;
      var u := NewUser(s, req, encode, now);
      assert users' == s.users + [u];
      forall i, j | 0 <= i < j < |users'| ensures UserEmail(users'[i]) != UserEmail(users'[j]) {
        if j < |s.users| {
          assert users'[i] == s.users[i] && users'[j] == s.users[j];
        } else {
          assert users'[i] in s.users;
        }
      }
      assert u in users';
      UserRepository.FindByEmailIsTheOnlyMatch(users', u);
    }
  }

  /** Registering the same email twice: the second attempt is refused and stores nothing. */
  lemma SecondRegistrationRefused(s: Store, ctx: SecurityContext, req: RegisterRequest, req2: RegisterRequest,
                                  encode: string -> string, now: Timestamp, later: Timestamp)
    requires HasRole(ctx, ADMIN) && req2.email == req.email
    requires Register(s, ctx, req, encode, now).reply.body.success
    ensures
      var s1 := Register(s, ctx, req, encode, now).store;
      Register(s1, ctx, req2, encode, later) == Response(s1, Reply(400, ApiResponse(false, EmailInUse, None, None)))
  {
    var s1 := Register(s, ctx, req, encode, now).store;
    assert s1.users[|s.users|] in s1.users;
  }

  /** POST /api/auth/login: authenticate, then sign a token for the principal's name. */
  function Login(o: LoginOracle, email: string, password: string): (r: Reply<AuthResponse>)
    ensures r.body.success <==> o.authenticate(email, password).Ok?
    ensures r.body.success ==>
      r == Reply(200, ApiResponse(true, LoginSucceeded,
                                  Some(AuthResponse(o.generateToken(o.authenticate(email, password).value), TokenIssued)),
                                  None))
    ensures !r.body.success ==> r == Handle(o.authenticate(email, password).error)
  {
    match o.authenticate(email, password)
    case Err(e) => Handle(e)
    case Ok(name) => Reply(200, ApiResponse(true, LoginSucceeded, Some(AuthResponse(o.generateToken(name), TokenIssued)), None))
  }

  /** A deactivated account's login is reported distinctly from wrong credentials. */
  lemma DeactivatedLoginIsDistinct(o: LoginOracle, e1: string, p1: string, e2: string, p2: string)
    requires o.authenticate(e1, p1) == Err(Disabled)
    requires o.authenticate(e2, p2) == Err(BadCredentials)
    ensures Login(o, e1, p1).status == 403 && Login(o, e1, p1).body.message == AccountDeactivated
    ensures Login(o, e2, p2).status == 401 && Login(o, e2, p2).body.message == InvalidCredentials
  {
  }
}

=== FILE: comment_controller.dfy ===
/** The comment endpoints under a task: creation is gated to MANAGER or USER at the
    method level; listing and deletion are left to the service. */
module CommentController {
  import opened Wrappers
  import opened Domain
  import opened ExceptionHandler
  import opened Endpoints
  import CommentService
  import SecurityUtils

  const Created := "Comment created successfully"
  const ListRetrieved := "Comments retrieved successfully"
  const Deleted := "Comment deleted successfully"

  /** The method-level gate on comment creation. */
  predicate MayCreateComments(ctx: SecurityContext) {
    HasRole(ctx, MANAGER) || HasRole(ctx, USER)
  }

  /** POST /api/tasks/{taskId}/comments: 201 with the new comment. */
  function CreateComment(s: Store, ctx: SecurityContext, taskId: Id, message: string, now: Timestamp)
    : (out: Response<CommentService.CommentResponse>)
    ensures !MayCreateComments(ctx) ==> out == Response(s, Reply(403, ApiResponse(false, AccessDeniedText, None, None)))
    ensures out.reply.body.success <==>
      MayCreateComments(ctx) && CommentService.CreateComment(s, ctx, taskId, message, now).Ok?
    ensures out.reply.body.success ==>
      var r := CommentService.CreateComment(s, ctx, taskId, message, now).value;
      out.reply.status == 201 && out.reply.body.data == Some(r.1) && out.store == r.0
    ensures !out.reply.body.success ==> out.store == s
    ensures MayCreateComments(ctx) && !out.reply.body.success ==>
      out.reply == Handle(CommentService.CreateComment(s, ctx, taskId, message, now).error)
  {
    if !MayCreateComments(ctx) then Denied(s)
    else Written(s, CommentService.CreateComment(s, ctx, taskId, message, now), 201, Created)
  }

  /** GET /api/tasks/{taskId}/comments. */
  function GetComments(s: Store, ctx: SecurityContext, taskId: Id)
    : (out: Response<seq<CommentService.CommentResponse>>)
    ensures out.store == s
    ensures out.reply.body.success <==> CommentService.GetCommentsByTaskId(s, ctx, taskId).Ok?
    ensures out.reply.body.success ==>
      out.reply.status == 200 && out.reply.body.data == Some(CommentService.GetCommentsByTaskId(s, ctx, taskId).value)
    ensures !out.reply.body.success ==> out.reply == Handle(CommentService.GetCommentsByTaskId(s, ctx, taskId).error)
  {
    Read(s, CommentService.GetCommentsByTaskId(s, ctx, taskId), ListRetrieved)
  }

  /** DELETE /api/tasks/{taskId}/comments/{commentId}: 200 with no payload. */
  function DeleteComment(s: Store, ctx: SecurityContext, taskId: Id, commentId: Id): (out: Response<()>)
    ensures out.reply.body.success <==> CommentService.DeleteComment(s, ctx, taskId, commentId).Ok?
    ensures out.reply.body.success ==>
      && out.store == CommentService.DeleteComment(s, ctx, taskId, commentId).value
      && out.reply == Reply(200, ApiResponse(true, Deleted, None, None))
    ensures !out.reply.body.success ==>
      out.store == s && out.reply == Handle(CommentService.DeleteComment(s, ctx, taskId, commentId).error)
  {
    match CommentService.DeleteComment(s, ctx, taskId, commentId)
    case Ok(s') => Response(s', Reply(200, ApiResponse(true, Deleted, None, None)))
    case Err(e) => Response(s, Handle(e))
  }

  /** An ADMIN passes the service's access check on every task, yet the method-level
      gate refuses their comments before the service runs. */
  lemma AdminMayReadButNotComment(s: Store, ctx: SecurityContext, taskId: Id, message: string, now: Timestamp)
    requires HasRole(ctx, ADMIN)
    requires FindTask(s.tasks, taskId).Some?
    requires SecurityUtils.GetCurrentUser(ctx, s.users).Ok?
    requires SecurityUtils.GetCurrentUser(ctx, s.users).value.role == ADMIN
    ensures CommentService.VerifyTaskAccess(FindTask(s.tasks, taskId).value, SecurityUtils.GetCurrentUser(ctx, s.users).value).Ok?
    ensures GetComments(s, ctx, taskId).reply.body.success
    ensures CreateComment(s, ctx, taskId, message, now) == Response(s, Handle(AccessDenied))
  {
  }
}

=== FILE: comment_service.dfy ===
/** The comment use cases: create, list and delete comments on a task. */
module CommentService {
  import opened Wrappers
  import opened Tables
  import opened Domain
  import opened Policy
  import SecurityUtils
  import TaskService

  const NoTaskAccess := "Access denied: You don't have permission to access this task"
  const WrongTask := "Comment does not belong to this task"
  const DeleteDenied := "Access denied: Only comment author or admin can delete"

  datatype CommentResponse = CommentResponse(
    id: Id,
    message: string,
    commentedById: Id,
    commentedBy: Option<string>,
    createdAt: Timestamp)

  /** `mapToDTO`: the author's id and, when the author row is found, their name. */
  function MapToDTO(c: Comment, users: seq<User>): (d: CommentResponse)
    ensures d.id == c.id && d.message == c.message && d.commentedById == c.commentedBy && d.createdAt == c.createdAt
    ensures d.commentedBy.Some? <==> FindUser(users, c.commentedBy).Some?
    ensures forall u :: u in users && UniqueKeys(users, UserId) && u.id == c.commentedBy ==> d.commentedBy == Some(u.name)
  {
    var author := FindUser(users, c.commentedBy);
    assert forall u :: u in users && UniqueKeys(users, UserId) && u.id == c.commentedBy ==> author == Some(u) by {
      forall u | u in users && UniqueKeys(users, UserId) && u.id == c.commentedBy ensures author == Some(u) {
        FindUnique(users, UserId, u);
      }
    }
    CommentResponse(c.id, c.message, c.commentedBy, if author.Some? then Some(author.value.name) else None, c.createdAt)
  }

  /** `verifyTaskAccess`: ADMIN, the task's creator or its assignee pass. */
  function VerifyTaskAccess(t: Task, caller: User): (r: Result<(), Error>)
    ensures r.Ok? <==> MayAccessComments(caller, t)
    ensures r.Err? ==> r.error == Forbidden(NoTaskAccess)
  {
    var isAdmin := caller.role == ADMIN;
    var isCreator := t.createdBy.Some? && t.createdBy.value == caller.id;
    var isAssignee := t.assignedTo.Some? && t.assignedTo.value == caller.id;
    if !isAdmin && !isCreator && !isAssignee then Err(Forbidden(NoTaskAccess)) else Ok(())
  }

  /** `createComment`: task existence, then identity, then access; the comment is stored
      under the next comment id with the caller as its author. */
  function CreateComment(s: Store, ctx: SecurityContext, taskId: Id, message: string, now: Timestamp)
    : (r: Result<(Store, CommentResponse), Error>)
    ensures FindTask(s.tasks, taskId).None? ==> r == Err(NotFound("Task"))
    ensures FindTask(s.tasks, taskId).Some? && SecurityUtils.GetCurrentUser(ctx, s.users).Err? ==>
      r == Err(SecurityUtils.GetCurrentUser(ctx, s.users).error)
    ensures r.Ok? <==>
      && FindTask(s.tasks, taskId).Some?
      && SecurityUtils.GetCurrentUser(ctx, s.users).Ok?
      && MayAccessComments(SecurityUtils.GetCurrentUser(ctx, s.users).value, FindTask(s.tasks, taskId).value)
    ensures r.Ok? ==>
      var c := Comment(s.nextCommentId, message, taskId, SecurityUtils.GetCurrentUser(ctx, s.users).value.id, now);
      && r.value.0.comments == s.comments + [c]
      && r.value.1 == MapToDTO(c, s.users)
    ensures r.Ok? ==>
      (r.value.0.users == s.users && r.value.0.tasks == s.tasks && r.value.0.nextCommentId == s.nextCommentId + 1)
  {
    match FindTask(s.tasks, taskId)
    case None => Err(NotFound("Task"))
    case Some(task) =>
      var caller :- SecurityUtils.GetCurrentUser(ctx, s.users);
      var _ :- VerifyTaskAccess(task, caller);
      var c := Comment(s.nextCommentId, message, taskId, caller.id, now);
      var s' := s.(comments := s.comments + [c], nextCommentId := s.nextCommentId + 1);
      Ok((s', MapToDTO(c, s.users)))
  }

  /** `commentRepository.findByTaskId`: the task's comments in storage order. */
  function CommentsOfTask(comments: seq<Comment>, taskId: Id): (r: seq<Comment>)
    ensures forall c :: c in r <==> c in comments && c.taskId == taskId
  {
    Filter(comments, (c: Comment) => c.taskId == taskId)
  }

  /** `getCommentsByTaskId`: the same checks as creation, then exactly the task's comments. */
  function GetCommentsByTaskId(s: Store, ctx: SecurityContext, taskId: Id): (r: Result<seq<CommentResponse>, Error>)
    ensures FindTask(s.tasks, taskId).None? ==> r == Err(NotFound("Task"))
    ensures r.Ok? <==>
      && FindTask(s.tasks, taskId).Some?
      && SecurityUtils.GetCurrentUser(ctx, s.users).Ok?
      && MayAccessComments(SecurityUtils.GetCurrentUser(ctx, s.users).value, FindTask(s.tasks, taskId).value)
    ensures r.Ok? ==> forall c :: c in s.comments && c.taskId == taskId ==> MapToDTO(c, s.users) in r.value
    ensures r.Ok? ==> forall d :: d in r.value ==>
      exists c :: c in s.comments && c.taskId == taskId && d == MapToDTO(c, s.users)
  {
    match FindTask(s.tasks, taskId)
    case None => Err(NotFound("Task"))
    case Some(task) =>
      var caller :- SecurityUtils.GetCurrentUser(ctx, s.users);
      var _ :- VerifyTaskAccess(task, caller);
      var found := CommentsOfTask(s.comments, taskId);
      var out := seq(|found|, i requires 0 <= i < |found| => MapToDTO(found[i], s.users));
      assert forall c :: c in found ==> MapToDTO(c, s.users) in out by {
        forall c | c in found ensures MapToDTO(c, s.users) in out {
          var i :| 0 <= i < |found| && found[i] == c;
          assert out[i] == MapToDTO(c, s.users);
        }
      }
      assert forall d :: d in out ==> exists c :: c in found && d == MapToDTO(c, s.users) by {
        forall d | d in out ensures exists c :: c in found && d == MapToDTO(c, s.users) {
          var i :| 0 <= i < |out| && out[i] == d;
          assert found[i] in found;
        }
      }
      Ok(out)
  }

  /** `deleteComment`: the comment must exist and belong to the task (both checked
      before identity); then only its author or an ADMIN may delete it. */
  function DeleteComment(s: Store, ctx: SecurityContext, taskId: Id, commentId: Id): (r: Result<Store, Error>)
    ensures FindComment(s.comments, commentId).None? ==> r == Err(NotFound("Comment"))
    ensures FindComment(s.comments, commentId).Some? && FindComment(s.comments, commentId).value.taskId != taskId ==>
      r == Err(BadRequest(WrongTask))
    ensures r.Ok? <==>
      && FindComment(s.comments, commentId).Some?
      && FindComment(s.comments, commentId).value.taskId == taskId
      && SecurityUtils.GetCurrentUser(ctx, s.users).Ok?
      && MayDeleteComment(SecurityUtils.GetCurrentUser(ctx, s.users).value, FindComment(s.comments, commentId).value)
    ensures (&& FindComment(s.comments, commentId).Some?
             && FindComment(s.comments, commentId).value.taskId == taskId
             && SecurityUtils.GetCurrentUser(ctx, s.users).Ok?
             && r.Err?)
      ==> r == Err(Forbidden(DeleteDenied))
    ensures r.Ok? ==> forall c :: c in r.value.comments <==> c in s.comments && c.id != commentId
    ensures r.Ok? ==> FindComment(r.value.comments, commentId).None?
    ensures r.Ok? ==> forall k :: k != commentId ==> FindComment(r.value.comments, k) == FindComment(s.comments, k)
    ensures r.Ok? ==>
      (r.value.users == s.users && r.value.tasks == s.tasks && r.value.nextCommentId == s.nextCommentId)
  {
    match FindComment(s.comments, commentId)
    case None => Err(NotFound("Comment"))
    case Some(comment) =>
      if comment.taskId != taskId then Err(BadRequest(WrongTask))
      else
        var caller :- SecurityUtils.GetCurrentUser(ctx, s.users);
        var isAdmin := caller.role == ADMIN;
        var isAuthor := comment.commentedBy == caller.id;
        if !isAdmin && !isAuthor then Err(Forbidden(DeleteDenied))
        else Ok(s.(comments := Delete(s.comments, CommentId, comment.id)))
  }

  /** After a successful delete the comment no longer appears in its task's listing. */
  lemma DeletedCommentNotListed(s: Store, ctx: SecurityContext, ctx2: SecurityContext, taskId: Id, commentId: Id)
    requires DeleteComment(s, ctx, taskId, commentId).Ok?
    requires GetCommentsByTaskId(DeleteComment(s, ctx, taskId, commentId).value, ctx2, taskId).Ok?
    ensures var listed := GetCommentsByTaskId(DeleteComment(s, ctx, taskId, commentId).value, ctx2, taskId).value;
      forall d :: d in listed ==> d.id != commentId
  {
  }

  /** A MANAGER who neither created nor is assigned a task can view it but cannot
      comment on it. */
  lemma ManagerViewsButCannotComment(s: Store, ctx: SecurityContext, taskId: Id, message: string, now: Timestamp)
    requires FindTask(s.tasks, taskId).Some?
    requires SecurityUtils.GetCurrentUser(ctx, s.users).Ok?
    requires SecurityUtils.GetCurrentUser(ctx, s.users).value.role == MANAGER
    requires !IsCreator(SecurityUtils.GetCurrentUser(ctx, s.users).value, FindTask(s.tasks, taskId).value)
    requires !IsAssignee(SecurityUtils.GetCurrentUser(ctx, s.users).value, FindTask(s.tasks, taskId).value)
    ensures TaskService.GetTaskById(s, ctx, taskId).Ok?
    ensures CreateComment(s, ctx, taskId, message, now) == Err(Forbidden(NoTaskAccess))
  {
  }
}

=== FILE: data_initializer.dfy ===
/** The start-up seeding of a default administrator account. */
module DataInitializer {
  import opened Tables
  import opened Domain

  /** The configured default administrator. */
  datatype AdminDefaults = AdminDefaults(name: string, email: string, password: string)

  /** The store has at least one ADMIN. */
  predicate HasAdmin(users: seq<User>) {
    exists u :: u in users && u.role == ADMIN
  }

  /** The number of ADMIN users, as the seeding counts them. */
  function AdminCount(users: seq<User>): (n: nat)
    ensures n == 0 <==> !HasAdmin(users)
  {
    Count(users, (u: User) => u.role == ADMIN)
  }

  /** `initDatabase`: when no ADMIN exists, a new active ADMIN with the configured name,
      email and encoded password is inserted under the next user id; otherwise nothing
      changes. */
  function InitDatabase(s: Store, admin: AdminDefaults, encode: string -> string, now: Timestamp): (r: Store)
    ensures HasAdmin(s.users) ==> r == s
    ensures !HasAdmin(s.users) ==>
      && r.users == s.users + [User(s.nextUserId, admin.name, admin.email, encode(admin.password), ADMIN, true, now)]
      && r.nextUserId == s.nextUserId + 1
      && r.tasks == s.tasks && r.comments == s.comments
      && r.nextTaskId == s.nextTaskId && r.nextCommentId == s.nextCommentId
    ensures HasAdmin(r.users)
  {
    if AdminCount(s.users) == 0 then
      var u := User(s.nextUserId, admin.name, admin.email, encode(admin.password), ADMIN, true, now);
      assert u in s.users + [u];
      s.(users := s.users + [u], nextUserId := s.nextUserId + 1)
    else s
  }

  /** Seeding twice is seeding once, whatever the configuration or clock of the second run. */
  lemma InitDatabaseIdempotent(s: Store, a1: AdminDefaults, a2: AdminDefaults,
                               e1: string -> string, e2: string -> string, t1: Timestamp, t2: Timestamp)
    ensures InitDatabase(InitDatabase(s, a1, e1, t1), a2, e2, t2) == InitDatabase(s, a1, e1, t1)
  {
  }
}

=== FILE: domain.dfy ===
/** The entities of the task-management backend (users, tasks, comments), the
    store that holds them, the security context, and the error kinds that the
    services raise. References between entities are ids, as foreign keys are. */
module Domain {
  import opened Wrappers
  import opened Tables

  type Id = nat

  /** Instants are abstract: the clock is a parameter of every operation that reads it. */
  type Timestamp = int

  // Enum constants keep the names they have in the source.
  datatype Role = ADMIN | MANAGER | USER
  datatype TaskStatus = OPEN | IN_PROGRESS | DONE
  datatype TaskPriority = LOW | MEDIUM | HIGH
  datatype AssignmentType = MANUAL | RANDOM | LEAST_LOADED

  /** `password` holds the encoder's output, never the raw password. */
  datatype User = User(
    id: Id,
    name: string,
    email: string,
    password: string,
    role: Role,
    isActive: bool,
    createdAt: Timestamp)

  /** `None` in a user reference is Java's `null`. */
  datatype Task = Task(
    id: Id,
    title: string,
    description: Option<string>,
    status: TaskStatus,
    priority: TaskPriority,
    createdBy: Option<Id>,
    assignedTo: Option<Id>,
    updatedBy: Option<Id>,
    createdAt: Timestamp)

  datatype Comment = Comment(
    id: Id,
    message: string,
    taskId: Id,
    commentedBy: Id,
    createdAt: Timestamp)

  /** The three tables in storage order, and the next value of each identity column. */
  datatype Store = Store(
    users: seq<User>,
    tasks: seq<Task>,
    comments: seq<Comment>,
    nextUserId: Id,
    nextTaskId: Id,
    nextCommentId: Id)

  function UserId(u: User): Id { u.id }
  function UserEmail(u: User): string { u.email }
  function TaskId(t: Task): Id { t.id }
  function CommentId(c: Comment): Id { c.id }

  /** `userRepository.findById` */
  function FindUser(users: seq<User>, id: Id): Option<User> {
    Find(users, UserId, id)
  }

  /** `taskRepository.findById` */
  function FindTask(tasks: seq<Task>, id: Id): Option<Task> {
    Find(tasks, TaskId, id)
  }

  /** `commentRepository.findById` */
  function FindComment(comments: seq<Comment>, id: Id): Option<Comment> {
    Find(comments, CommentId, id)
  }

  /** One entry of a bean-validation failure. */
  datatype FieldError = FieldError(field: string, message: string)

  /** The exceptions the core raises, one variant per handler of the boundary. */
  datatype Error =
    | NotFound(message: string)              // ResourceNotFoundException
    | BadRequest(message: string)            // BadRequestException
    | Forbidden(message: string)             // ForbiddenException
    | Unauthorized(message: string)          // UnauthorizedException
    | Validation(fieldErrors: seq<FieldError>) // MethodArgumentNotValidException
    | BadCredentials                         // raised by the authentication manager
    | Disabled                               // raised by the authentication manager
    | AccessDenied                           // a failed @PreAuthorize gate
    | IllegalArgument(message: string)       // IllegalArgumentException
    | Unexpected(message: string)            // any other RuntimeException

  /** The authentication held by the request's security context. */
  datatype Authentication = Authentication(name: string, role: Role, authenticated: bool)

  /** `None` is an empty security context. */
  type SecurityContext = Option<Authentication>

  /** The task's assignee exists and has role USER: what every assignment path promises. */
  ghost predicate AssigneeIsUserRole(t: Task, users: seq<User>) {
    t.assignedTo.Some? && exists u :: u in users && u.id == t.assignedTo.value && u.role == USER
  }

  /** A nullable user reference is null or names an existing user. */
  ghost predicate RefOk(ref: Option<Id>, users: seq<User>) {
    ref.None? || FindUser(users, ref.value).Some?
  }

  /** What the database's keys and foreign keys guarantee of every store. */
  ghost predicate Valid(s: Store) {
    && UniqueKeys(s.users, UserId)
    && UniqueKeys(s.users, UserEmail)
    && UniqueKeys(s.tasks, TaskId)
    && UniqueKeys(s.comments, CommentId)
    && (forall u :: u in s.users ==> u.id < s.nextUserId)
    && (forall t :: t in s.tasks ==> t.id < s.nextTaskId)
    && (forall c :: c in s.comments ==> c.id < s.nextCommentId)
    && (forall t :: t in s.tasks ==>
          RefOk(t.createdBy, s.users) && RefOk(t.assignedTo, s.users) && RefOk(t.updatedBy, s.users))
    && (forall c :: c in s.comments ==>
          FindTask(s.tasks, c.taskId).Some? && FindUser(s.users, c.commentedBy).Some?)
  }
}

=== FILE: endpoints.dfy ===
/** What the controllers share: the method-level role gate, and how a service result
    becomes a store and an HTTP reply. */
module Endpoints {
  import opened Wrappers
  import opened Domain
  import opened ExceptionHandler

  /** A controller call's outcome: the store after the call and the reply sent. */
  datatype Response<T> = Response(store: Store, reply: Reply<T>)

  /** `hasRole(r)` on the request's identity. */
  predicate HasRole(ctx: SecurityContext, r: Role) {
    ctx.Some? && ctx.value.role == r
  }

  /** A `@PreAuthorize` refusal: the handler's access-denied reply, nothing stored. */
  function Denied<T>(s: Store): Response<T> {
    Response(s, Handle(AccessDenied))
  }

  /** Reading the name of a missing authentication, as the controllers do when they log
      the caller: the null-pointer exception carries no message, and the catch-all
      handler answers 500. Nothing is stored. */
  function NullAuthentication<T>(s: Store): Response<T> {
    Response(s, Handle(Unexpected("")))
  }

  /** A service call that writes: on success the new store and a success envelope with
      the payload; on failure the old store, since the transaction rolls back, and the
      handler's reply. */
  function Written<T>(s: Store, r: Result<(Store, T), Error>, status: nat, message: string): Response<T> {
    match r
    case Ok((s', v)) => Response(s', Reply(status, ApiResponse(true, message, Some(v), None)))
    case Err(e) => Response(s, Handle(e))
  }

  /** A service call that only reads: the store is unchanged either way. */
  function Read<T>(s: Store, r: Result<T, Error>, message: string): Response<T> {
    match r
    case Ok(v) => Response(s, Reply(200, ApiResponse(true, message, Some(v), None)))
    case Err(e) => Response(s, Handle(e))
  }
}

=== FILE: exception_handler.dfy ===
/** The response envelope and the boundary that turns every error kind into an HTTP
    reply. Timestamps are left out of the envelope. */
module ExceptionHandler {
  import opened Wrappers
  import opened Domain

  /** `ApiResponse`: the uniform envelope of every reply. */
  datatype ApiResponse<T> = ApiResponse(
    success: bool,
    message: string,
    data: Option<T>,
    errors: Option<map<string, string>>)

  /** A reply: HTTP status and envelope. */
  datatype Reply<T> = Reply(status: nat, body: ApiResponse<T>)

  const ValidationFailed := "Validation failed"
  const InvalidCredentials := "Invalid credentials"
  const AccountDeactivated := "Account is deactivated. Please contact an administrator."
  const AccessDeniedText := "Access denied"
  const UnexpectedText := "An unexpected error occurred"

  /** Entry `i` exists and no later entry names the same field. */
  ghost predicate LastOfField(errs: seq<FieldError>, i: int) {
    && 0 <= i < |errs|
    && forall j :: i < j < |errs| ==> errs[j].field != errs[i].field
  }

  /** The fields named by some entry. */
  ghost predicate Named(errs: seq<FieldError>, f: string) {
    exists i :: 0 <= i < |errs| && errs[i].field == f
  }

  /** The field-error map of a validation failure: entries are put in order, so when
      a field repeats its last message wins. */
  function FieldErrorMap(errs: seq<FieldError>): (m: map<string, string>)
    ensures forall f :: f in m <==> Named(errs, f)
    ensures forall i :: LastOfField(errs, i) ==> errs[i].field in m && m[errs[i].field] == errs[i].message
  {
    if |errs| == 0 then map[]
    else
      var init := errs[..|errs| - 1];
      var last := errs[|errs| - 1];
      assert errs == init + [last];
      var m0 := FieldErrorMap(init);
      PutKeys(init, last, m0);
      PutLastWins(init, last, m0);
      m0[last.field := last.message]
  }

  /** One `put` step adds the new entry's field to the keys. */
  lemma PutKeys(init: seq<FieldError>, last: FieldError, m0: map<string, string>)
    requires forall f :: f in m0 <==> Named(init, f)
    ensures forall f :: f in m0[last.field := last.message] <==> Named(init + [last], f)
  {
    var errs := init + [last];
    assert errs[|init|] == last;
    forall f ensures f in m0[last.field := last.message] <==> Named(errs, f) {
      if f in m0 {
        var i :| 0 <= i < |init| && init[i].field == f;
        assert errs[i] == init[i];
      }
      if Named(errs, f) && f != last.field {
        var i :| 0 <= i < |errs| && errs[i].field == f;
        assert init[i] == errs[i];
      }
    }
  }

  /** One `put` step keeps the message of every entry that stays last of its field. */
  lemma PutLastWins(init: seq<FieldError>, last: FieldError, m0: map<string, string>)
    requires forall i :: LastOfField(init, i) ==> init[i].field in m0 && m0[init[i].field] == init[i].message
    ensures var m := m0[last.field := last.message];
      forall i :: LastOfField(init + [last], i) ==>
        ((init + [last])[i].field in m && m[(init + [last])[i].field] == (init + [last])[i].message)
  {
    var errs := init + [last];
    var n := |init|;
    forall i | LastOfField(errs, i)
      ensures errs[i].field in m0[last.field := last.message]
      ensures m0[last.field := last.message][errs[i].field] == errs[i].message
    {
      if i < n {
        assert errs[n] == last;
        assert init[i] == errs[i];
        assert LastOfField(init, i) by {
          forall j | i < j < |init| ensures init[j].field != init[i].field {
            assert init[j] == errs[j];
          }
        }
      }
    }
  }

  /** The two messages for one field: the later one is reported. */
  lemma LastMessageWins(f: string, first: string, second: string)
    ensures FieldErrorMap([FieldError(f, first), FieldError(f, second)]) == map[f := second]
  {
    var errs := [FieldError(f, first), FieldError(f, second)];
    var m := FieldErrorMap(errs);
    assert errs[1].field == f;
    assert m[f] == second;
    assert m.Keys == {f};
  }

  /** The handler chosen for each error kind: a failure envelope with no data, the
      kind's status, and the exception's message or the handler's fixed text. */
  function Handle<T>(e: Error): (r: Reply<T>)
    ensures !r.body.success && r.body.data.None?
    ensures r.body.errors.Some? <==> e.Validation?
    ensures e.Validation? ==> r == Reply(400, ApiResponse(false, ValidationFailed, None, Some(FieldErrorMap(e.fieldErrors))))
    ensures e.NotFound? || e.Unauthorized? || e.Forbidden? || e.BadRequest? || e.IllegalArgument? ==>
      r.body.message == e.message
    ensures e.BadCredentials? ==> r.body.message == InvalidCredentials
    ensures e.Disabled? ==> r.body.message == AccountDeactivated
    ensures e.AccessDenied? ==> r.body.message == AccessDeniedText
    ensures e.Unexpected? ==> r.body.message == UnexpectedText
  {
    match e
    case Validation(errs) => Reply(400, ApiResponse(false, ValidationFailed, None, Some(FieldErrorMap(errs))))
    case NotFound(m) => Reply(404, ApiResponse(false, m, None, None))
    case Unauthorized(m) => Reply(401, ApiResponse(false, m, None, None))
    case BadCredentials => Reply(401, ApiResponse(false, InvalidCredentials, None, None))
    case Disabled => Reply(403, ApiResponse(false, AccountDeactivated, None, None))
    case Forbidden(m) => Reply(403, ApiResponse(false, m, None, None))
    case AccessDenied => Reply(403, ApiResponse(false, AccessDeniedText, None, None))
    case BadRequest(m) => Reply(400, ApiResponse(false, m, None, None))
    case IllegalArgument(m) => Reply(400, ApiResponse(false, m, None, None))
    case Unexpected(_) => Reply(500, ApiResponse(false, UnexpectedText, None, None))
  }

  /** The error kinds, grouped by the HTTP status the handler gives each. */
  datatype Kind = KindUnauthorized | KindForbidden | KindNotFound | KindBadRequest | KindUnexpected

  /** The kind of each error: bad login credentials are an authentication gap, a
      deactivated account and a failed role gate are policy denials, and validation
      failures are bad requests. */
  function KindOf(e: Error): Kind {
    match e
    case Unauthorized(_) => KindUnauthorized
    case BadCredentials => KindUnauthorized
    case Forbidden(_) => KindForbidden
    case Disabled => KindForbidden
    case AccessDenied => KindForbidden
    case NotFound(_) => KindNotFound
    case BadRequest(_) => KindBadRequest
    case IllegalArgument(_) => KindBadRequest
    case Validation(_) => KindBadRequest
    case Unexpected(_) => KindUnexpected
  }

  /** The status each kind stands for. */
  function KindStatus(k: Kind): nat {
    match k
    case KindUnauthorized => 401
    case KindForbidden => 403
    case KindNotFound => 404
    case KindBadRequest => 400
    case KindUnexpected => 500
  }

  /** The handler maps by kind alone: every error gets its kind's status. */
  lemma StatusFollowsKind<T>(e: Error)
    ensures Handle<T>(e).status == KindStatus(KindOf(e))
  {
  }

  /** A 500 reply carries the same text whatever went wrong inside. */
  lemma UnexpectedHidesDetail<T>(m1: string, m2: string)
    ensures Handle<T>(Unexpected(m1)) == Handle<T>(Unexpected(m2))
  {
  }

  /** A deactivated account and bad credentials are reported differently. */
  lemma DisabledDistinctFromBadCredentials<T>()
    ensures Handle<T>(Disabled).status != Handle<T>(BadCredentials).status
    ensures Handle<T>(Disabled).body.message != Handle<T>(BadCredentials).body.message
  {
  }
}

=== FILE: jwt_filter.dfy ===
/** The per-request bearer-token filter. Token parsing and signing, the user-details
    lookup and token validation are foreign code and enter as an oracle. */
module JwtFilter {
  import opened Wrappers
  import opened Domain

  const BearerPrefix := "Bearer "

  /** What the user-details service yields: the principal's name and authority. */
  datatype UserDetails = UserDetails(username: string, role: Role)

  /** The foreign calls the filter makes:
      - `extractUsername` gives None when the token carries no subject or parsing throws
        (the filter swallows that exception);
      - `loadUser` gives None when the lookup throws, which the filter does not catch;
      - `validateToken` is the token check against the loaded details. */
  datatype TokenOracle = TokenOracle(
    extractUsername: string -> Option<string>,
    loadUser: string -> Option<UserDetails>,
    validateToken: (string, UserDetails) -> bool)

  /** How a request leaves the filter: on down the chain with the (possibly new)
      security context, or aborted by an exception the filter lets escape. */
  datatype FilterOutcome = Continue(ctx: SecurityContext) | Aborted

  /** The header starts with the bearer prefix. */
  predicate IsBearer(h: string) {
    |h| >= |BearerPrefix| && h[..|BearerPrefix|] == BearerPrefix
  }

  /** The token of an `Authorization` header: what follows the bearer prefix, when the
      header is present and has that prefix. */
  function BearerToken(header: Option<string>): (r: Option<string>)
    ensures r.Some? <==> header.Some? && IsBearer(header.value)
    ensures r.Some? ==> header.value == BearerPrefix + r.value
  {
    if header.Some? && IsBearer(header.value) then
      var token := header.value[|BearerPrefix|..];
      assert header.value == header.value[..|BearerPrefix|] + token;
      Some(token)
    else None
  }

  /** The username the filter extracts from the request, if any. */
  function ExtractedName(o: TokenOracle, header: Option<string>): Option<string> {
    match BearerToken(header)
    case None => None
    case Some(jwt) => o.extractUsername(jwt)
  }

  /** Steps 5 to 9, shared by both filters: with a username and no identity yet, load
      the user and, if the token validates, set an authenticated identity. */
  function Authenticate(o: TokenOracle, jwt: string, username: Option<string>, ctx: SecurityContext)
    : (r: FilterOutcome)
    ensures ctx.Some? || username.None? ==> r == Continue(ctx)
    ensures r.Aborted? <==> ctx.None? && username.Some? && o.loadUser(username.value).None?
    ensures r.Continue? && r.ctx != ctx ==>
      && ctx.None? && username.Some?
      && var d := o.loadUser(username.value);
      && d.Some? && o.validateToken(jwt, d.value)
      && r.ctx == Some(Authentication(d.value.username, d.value.role, true))
  {
    if username.Some? && ctx.None? then
      match o.loadUser(username.value)
      case None => Aborted
      case Some(d) =>
        if o.validateToken(jwt, d) then Continue(Some(Authentication(d.username, d.role, true)))
        else Continue(ctx)
    else Continue(ctx)
  }

  /** `doFilterInternal` as written: the diagnostic line that prints the first ten
      characters of the token throws on any shorter token, before the username is
      extracted and outside the try block. */
  function DoFilterInternal(o: TokenOracle, header: Option<string>, ctx: SecurityContext): (r: FilterOutcome)
    ensures BearerToken(header).Some? && |BearerToken(header).value| < 10 ==> r.Aborted?
    ensures BearerToken(header).None? ==> r == Continue(ctx)
    ensures BearerToken(header).Some? && |BearerToken(header).value| >= 10 ==>
      r == DoFilterGuarded(o, header, ctx)
  {
    match BearerToken(header)
    case None => Continue(ctx)
    case Some(jwt) =>
      if |jwt| < 10 then Aborted
      else Authenticate(o, jwt, o.extractUsername(jwt), ctx)
  }

  /** The filter without the crashing diagnostic: an identity is set at most once, only
      for a validated token, and every request goes on down the chain unless loading
      the named user throws. */
  function DoFilterGuarded(o: TokenOracle, header: Option<string>, ctx: SecurityContext): (r: FilterOutcome)
    ensures ctx.Some? ==> r == Continue(ctx)
    ensures ExtractedName(o, header).None? ==> r == Continue(ctx)
    ensures r.Aborted? <==>
      ctx.None? && ExtractedName(o, header).Some? && o.loadUser(ExtractedName(o, header).value).None?
    ensures r.Continue? && r.ctx.Some? && ctx.None? ==>
      && BearerToken(header).Some? && ExtractedName(o, header).Some?
      && var d := o.loadUser(ExtractedName(o, header).value);
      && d.Some? && o.validateToken(BearerToken(header).value, d.value)
      && r.ctx == Some(Authentication(d.value.username, d.value.role, true))
  {
    match BearerToken(header)
    case None => Continue(ctx)
    case Some(jwt) => Authenticate(o, jwt, o.extractUsername(jwt), ctx)
  }

  /** Running the corrected filter a second time on its own output changes nothing. */
  lemma GuardedFilterIdempotent(o: TokenOracle, header: Option<string>, ctx: SecurityContext)
    requires DoFilterGuarded(o, header, ctx).Continue?
    ensures DoFilterGuarded(o, header, DoFilterGuarded(o, header, ctx).ctx) == DoFilterGuarded(o, header, ctx)
  {
  }

  /** A request without a bearer header passes through untouched by both filters. */
  lemma NoBearerNoIdentity(o: TokenOracle, header: Option<string>)
    requires header.None? || !IsBearer(header.value)
    ensures DoFilterInternal(o, header, None) == Continue(None)
    ensures DoFilterGuarded(o, header, None) == Continue(None)
  {
  }

  /** The short token `abc` aborts the request in the filter as written, whatever the
      oracle does, while the corrected filter lets it through unauthenticated when the
      token does not parse. */
  lemma ShortTokenAborts(o: TokenOracle)
    requires o.extractUsername("abc").None?
    ensures DoFilterInternal(o, Some("Bearer abc"), None) == Aborted
    ensures DoFilterGuarded(o, Some("Bearer abc"), None) == Continue(None)
  {
    assert IsBearer("Bearer abc");
    assert BearerToken(Some("Bearer abc")) == Some("abc") by {
      assert "Bearer abc"[7..] == "abc";
    }
  }
}

=== FILE: mappers.dfy ===
/** The response projections of tasks and users. None of them carries a password. */
module Mappers {
  import opened Wrappers
  import opened Domain

  datatype TaskResponse = TaskResponse(
    id: Id,
    title: string,
    description: Option<string>,
    status: TaskStatus,
    priority: TaskPriority,
    createdAt: Timestamp,
    assignedUserId: Option<Id>,
    assignedUserName: Option<string>,
    createdByUserId: Option<Id>,
    createdByUserName: Option<string>,
    updatedByUserId: Option<Id>,
    updatedByUserName: Option<string>)

  datatype UserProfileDTO = UserProfileDTO(id: Id, name: string, email: string, role: Role)

  datatype UserAdminDTO = UserAdminDTO(
    id: Id, name: string, email: string, role: Role, isActive: bool, createdAt: Timestamp)

  datatype UserSummaryDTO = UserSummaryDTO(id: Id, name: string, email: string)

  /** The name behind a nullable user reference. */
  function RefName(ref: Option<Id>, users: seq<User>): Option<string> {
    if ref.None? then None
    else match FindUser(users, ref.value)
      case Some(u) => Some(u.name)
      case None => None
  }

  /** `toResponseDTO`: scalar fields verbatim; each null user reference leaves its id
      and name null, otherwise they hold the referenced user's id and name. */
  function ToResponseDTO(t: Task, users: seq<User>): (r: TaskResponse)
    ensures r.id == t.id && r.title == t.title && r.description == t.description
    ensures r.status == t.status && r.priority == t.priority && r.createdAt == t.createdAt
    ensures r.assignedUserId == t.assignedTo && r.createdByUserId == t.createdBy && r.updatedByUserId == t.updatedBy
    ensures t.assignedTo.None? ==> r.assignedUserName.None?
    ensures t.createdBy.None? ==> r.createdByUserName.None?
    ensures t.updatedBy.None? ==> r.updatedByUserName.None?
    ensures forall u :: u in users && t.assignedTo == Some(u.id) && FindUser(users, u.id) == Some(u) ==>
      r.assignedUserName == Some(u.name)
    ensures forall u :: u in users && t.createdBy == Some(u.id) && FindUser(users, u.id) == Some(u) ==>
      r.createdByUserName == Some(u.name)
    ensures forall u :: u in users && t.updatedBy == Some(u.id) && FindUser(users, u.id) == Some(u) ==>
      r.updatedByUserName == Some(u.name)
  {
    TaskResponse(
      t.id, t.title, t.description, t.status, t.priority, t.createdAt,
      t.assignedTo, RefName(t.assignedTo, users),
      t.createdBy, RefName(t.createdBy, users),
      t.updatedBy, RefName(t.updatedBy, users))
  }

  /** `toProfileDTO`: id, name, email and role. */
  function ToProfileDTO(u: User): (d: UserProfileDTO)
    ensures d.id == u.id && d.name == u.name && d.email == u.email && d.role == u.role
  {
    UserProfileDTO(u.id, u.name, u.email, u.role)
  }

  /** `toAdminDTO`: id, name, email, role, active flag and creation time. */
  function ToAdminDTO(u: User): (d: UserAdminDTO)
    ensures d.id == u.id && d.name == u.name && d.email == u.email && d.role == u.role
    ensures d.isActive == u.isActive && d.createdAt == u.createdAt
  {
    UserAdminDTO(u.id, u.name, u.email, u.role, u.isActive, u.createdAt)
  }

  /** `toSummaryDTO`: id, name and email only. */
  function ToSummaryDTO(u: User): (d: UserSummaryDTO)
    ensures d.id == u.id && d.name == u.name && d.email == u.email
  {
    UserSummaryDTO(u.id, u.name, u.email)
  }

  /** No projection reveals the password: two users differing only in it map alike. */
  lemma ProjectionsHidePassword(u: User, password: string)
    ensures ToProfileDTO(u.(password := password)) == ToProfileDTO(u)
    ensures ToAdminDTO(u.(password := password)) == ToAdminDTO(u)
    ensures ToSummaryDTO(u.(password := password)) == ToSummaryDTO(u)
  {
  }

  /** The summary and the profile are both cut down from the admin view. */
  lemma ProjectionsNest(u: User)
    ensures var a := ToAdminDTO(u);
      ToSummaryDTO(u) == UserSummaryDTO(a.id, a.name, a.email)
      && ToProfileDTO(u) == UserProfileDTO(a.id, a.name, a.email, a.role)
  {
  }
}

=== FILE: policy.dfy ===
/** The role-based authorization table of the backend, stated per resource and
    independently of how the services check it. The services' contracts are stated
    against these predicates. */
module Policy {
  import opened Wrappers
  import opened Domain

  /** The caller is the task's assignee. */
  predicate IsAssignee(caller: User, t: Task) {
    t.assignedTo == Some(caller.id)
  }

  /** The caller created the task. */
  predicate IsCreator(caller: User, t: Task) {
    t.createdBy == Some(caller.id)
  }

  /** Viewing a task, alone or in a listing: ADMIN and MANAGER any task, USER only
      as assignee. */
  predicate MayViewTask(caller: User, t: Task) {
    match caller.role
    case ADMIN => true
    case MANAGER => true
    case USER => IsAssignee(caller, t)
  }

  /** Updating title, description or priority: MANAGER only. */
  predicate MayUpdateTaskFields(caller: User, t: Task) {
    match caller.role
    case ADMIN => false
    case MANAGER => true
    case USER => false
  }

  /** Updating status: MANAGER on any task, USER only as assignee. */
  predicate MayUpdateTaskStatus(caller: User, t: Task) {
    match caller.role
    case ADMIN => false
    case MANAGER => true
    case USER => IsAssignee(caller, t)
  }

  /** Reading or writing a task's comments: ADMIN, the task's creator, or its assignee. */
  predicate MayAccessComments(caller: User, t: Task) {
    caller.role == ADMIN || IsCreator(caller, t) || IsAssignee(caller, t)
  }

  /** Deleting a comment: its author or an ADMIN. */
  predicate MayDeleteComment(caller: User, c: Comment) {
    caller.role == ADMIN || c.commentedBy == caller.id
  }
}

=== FILE: security_config.dfy ===
/** The HTTP security chain: which paths are public, and how one stateless request
    passes the bearer-token filter and the authentication rule before it reaches a
    controller. */
module SecurityConfig {
  import opened Wrappers
  import opened Domain
  import opened JwtFilter

  const LoginPath := "/api/auth/login"
  const RegisterPath := "/api/auth/register"
  const ApiDocsBase := "/v3/api-docs"
  const SwaggerUiBase := "/swagger-ui"
  const SwaggerUiPage := "/swagger-ui.html"

  /** `p` starts with `prefix`. */
  predicate StartsWith(p: string, prefix: string) {
    |p| >= |prefix| && p[..|prefix|] == prefix
  }

  /** A double-wildcard path pattern: the base itself or anything below it. */
  predicate UnderBase(p: string, base: string) {
    p == base || StartsWith(p, base + "/")
  }

  /** The `permitAll` rules: the login endpoint and the API documentation. */
  predicate IsPublic(p: string) {
    || p == LoginPath
    || UnderBase(p, ApiDocsBase)
    || UnderBase(p, SwaggerUiBase)
    || p == SwaggerUiPage
  }

  /** One request as the chain sees it. */
  datatype Request = Request(path: string, authorization: Option<string>)

  /** Where the chain leaves a request: aborted inside the filter, refused for want of
      an authenticated identity, or handed to the controller with its identity. */
  datatype Decision = FilterAborted | Unauthenticated | Dispatched(ctx: SecurityContext)

  /** The `anyRequest().authenticated()` rule on a context. */
  predicate IsAuthenticated(ctx: SecurityContext) {
    ctx.Some? && ctx.value.authenticated
  }

  /** The path rules applied to the filter's outcome: an abort ends the request, and
      only a public path or an authenticated identity reaches the controller. */
  function Decide(path: string, outcome: FilterOutcome): Decision {
    match outcome
    case Aborted => FilterAborted
    case Continue(ctx) => if IsPublic(path) || IsAuthenticated(ctx) then Dispatched(ctx) else Unauthenticated
  }

  /** The chain for one request, as the program runs it: sessions are stateless, so
      every request starts with an empty context; the bearer filter as written runs
      first, then the path rules. A short bearer token aborts even a public request. */
  function Process(o: TokenOracle, req: Request): (d: Decision)
    ensures d.FilterAborted? <==> DoFilterInternal(o, req.authorization, None).Aborted?
    ensures BearerToken(req.authorization).Some? && |BearerToken(req.authorization).value| < 10 ==> d == FilterAborted
    ensures d.Unauthenticated? <==>
      && DoFilterInternal(o, req.authorization, None).Continue?
      && !IsPublic(req.path)
      && !IsAuthenticated(DoFilterInternal(o, req.authorization, None).ctx)
    ensures d.Dispatched? && !IsPublic(req.path) ==> IsAuthenticated(d.ctx)
    ensures d.Dispatched? && d.ctx.Some? ==>
      && BearerToken(req.authorization).Some? && ExtractedName(o, req.authorization).Some?
      && var u := o.loadUser(ExtractedName(o, req.authorization).value);
      && u.Some? && o.validateToken(BearerToken(req.authorization).value, u.value)
      && d.ctx == Some(Authentication(u.value.username, u.value.role, true))
  {
    Decide(req.path, DoFilterInternal(o, req.authorization, None))
  }

  /** The same chain over the corrected filter: a request is aborted only when loading
      the named user throws. */
  function ProcessGuarded(o: TokenOracle, req: Request): (d: Decision)
    ensures d.FilterAborted? <==> DoFilterGuarded(o, req.authorization, None).Aborted?
    ensures d.Unauthenticated? <==>
      && DoFilterGuarded(o, req.authorization, None).Continue?
      && !IsPublic(req.path)
      && !IsAuthenticated(DoFilterGuarded(o, req.authorization, None).ctx)
    ensures d.Dispatched? && !IsPublic(req.path) ==> IsAuthenticated(d.ctx)
    ensures d.Dispatched? && d.ctx.Some? ==>
      && BearerToken(req.authorization).Some? && ExtractedName(o, req.authorization).Some?
      && var u := o.loadUser(ExtractedName(o, req.authorization).value);
      && u.Some? && o.validateToken(BearerToken(req.authorization).value, u.value)
      && d.ctx == Some(Authentication(u.value.username, u.value.role, true))
  {
    Decide(req.path, DoFilterGuarded(o, req.authorization, None))
  }

  /** The two chains differ only on short bearer tokens. */
  lemma ChainsAgreeOffShortTokens(o: TokenOracle, req: Request)
    requires BearerToken(req.authorization).None? || |BearerToken(req.authorization).value| >= 10
    ensures Process(o, req) == ProcessGuarded(o, req)
  {
  }

  /** A login request carrying the header "Bearer abc" is aborted by the program's chain,
      though the login path is public; the corrected chain lets it reach the controller
      with no identity when the token does not parse. */
  lemma ShortTokenBlocksLogin(o: TokenOracle)
    requires o.extractUsername("abc").None?
    ensures Process(o, Request(LoginPath, Some("Bearer abc"))) == FilterAborted
    ensures ProcessGuarded(o, Request(LoginPath, Some("Bearer abc"))) == Dispatched(None)
  {
  }

  /** Registration is not public: without a token it never reaches the controller. */
  lemma RegisterNeedsAuthentication(o: TokenOracle)
    ensures !IsPublic(RegisterPath)
    ensures Process(o, Request(RegisterPath, None)) == Unauthenticated
  {
    assert RegisterPath[1] == 'a';
    assert (ApiDocsBase + "/")[1] == 'v' && (SwaggerUiBase + "/")[1] == 's';
  }

  /** Login and the documentation pages are reached without any token. */
  lemma PublicPathsNeedNoToken(o: TokenOracle, p: string)
    requires IsPublic(p)
    ensures Process(o, Request(p, None)) == Dispatched(None)
    ensures ProcessGuarded(o, Request(p, None)) == Dispatched(None)
  {
  }

  /** A request to a protected path is dispatched exactly when the token yields an
      authenticated identity, in both chains. */
  lemma ProtectedPathNeedsValidToken(o: TokenOracle, req: Request)
    requires !IsPublic(req.path)
    ensures Process(o, req).Dispatched? <==>
      (DoFilterInternal(o, req.authorization, None).Continue?
       && IsAuthenticated(DoFilterInternal(o, req.authorization, None).ctx))
    ensures ProcessGuarded(o, req).Dispatched? <==>
      (DoFilterGuarded(o, req.authorization, None).Continue?
       && IsAuthenticated(DoFilterGuarded(o, req.authorization, None).ctx))
  {
  }
}

=== FILE: security_utils.dfy ===
/** Resolution of the current user from the request's security context. */
module SecurityUtils {
  import opened Wrappers
  import opened Domain
  import UserRepository

  const NotAuthenticated := "User not authenticated"
  const CurrentUserNotFound := "Current user not found"

  /** `getCurrentUser`: the user whose email is the authentication's name. A lookup
      only: it takes the users table and returns no store. */
  function GetCurrentUser(ctx: SecurityContext, users: seq<User>): (r: Result<User, Error>)
    ensures ctx.None? || !ctx.value.authenticated ==> r == Err(Unauthorized(NotAuthenticated))
    ensures r.Ok? ==> ctx.Some? && ctx.value.authenticated && r.value in users && r.value.email == ctx.value.name
    ensures ctx.Some? && ctx.value.authenticated ==>
      (r.Err? <==> forall u :: u in users ==> u.email != ctx.value.name)
    ensures ctx.Some? && ctx.value.authenticated && r.Err? ==> r.error == Unexpected(CurrentUserNotFound)
  {
    if ctx.None? || !ctx.value.authenticated then
      Err(Unauthorized(NotAuthenticated))
    else
      match UserRepository.FindByEmail(users, ctx.value.name)
      case Some(u) => Ok(u)
      case None => Err(Unexpected(CurrentUserNotFound))
  }
}

=== FILE: store_invariants.dfy ===
/** Every write the services and controllers perform keeps the store valid: keys stay
    unique, ids stay below their identity counters, and every reference names an
    existing row. */
module StoreInvariants {
  import opened Wrappers
  import opened Tables
  import opened Domain
  import SecurityUtils
  import TaskService
  import CommentService
  import UserService
  import DataInitializer
  import AuthController
  import UserRepository

  // ---------------------------------------------------------------- table steps

  /** Replacing an existing task by one whose references are valid keeps the store valid. */
  lemma TaskSaveValid(s: Store, x: Task)
    requires Valid(s)
    requires FindTask(s.tasks, x.id).Some?
    requires RefOk(x.createdBy, s.users) && RefOk(x.assignedTo, s.users) && RefOk(x.updatedBy, s.users)
    ensures Valid(s.(tasks := Save(s.tasks, TaskId, x)))
  {
    var tasks' := Save(s.tasks, TaskId, x);
    SaveKeepsKeysUnique(s.tasks, TaskId, x);
    assert FindTask(s.tasks, x.id).value in s.tasks;
    forall c | c in s.comments ensures FindTask(tasks', c.taskId).Some? {
      if c.taskId != x.id {
        assert FindTask(tasks', c.taskId) == FindTask(s.tasks, c.taskId);
      }
    }
  }

  /** Replacing an existing user by one with the same email keeps the store valid. */
  lemma UserSaveValid(s: Store, x: User)
    requires Valid(s)
    requires FindUser(s.users, x.id).Some?
    requires FindUser(s.users, x.id).value.email == x.email
    ensures Valid(s.(users := Save(s.users, UserId, x)))
  {
    var users' := Save(s.users, UserId, x);
    SaveKeepsKeysUnique(s.users, UserId, x);
    SaveKeepsOtherKeyUnique(s.users, UserId, UserEmail, x);
    assert FindUser(s.users, x.id).value in s.users;
    assert forall u :: u in users' ==> u.id < s.nextUserId;
    assert forall id :: FindUser(users', id).Some? <==> FindUser(s.users, id).Some?;
    forall t | t in s.tasks
      ensures RefOk(t.createdBy, users') && RefOk(t.assignedTo, users') && RefOk(t.updatedBy, users')
    {
      assert RefOk(t.createdBy, s.users) && RefOk(t.assignedTo, s.users) && RefOk(t.updatedBy, s.users);
    }
    forall c | c in s.comments ensures FindUser(users', c.commentedBy).Some? {
      assert FindUser(s.users, c.commentedBy).Some?;
    }
  }

  /** Appending a task under the next task id, with valid references, keeps the store valid. */
  lemma TaskInsertValid(s: Store, x: Task)
    requires Valid(s)
    requires x.id == s.nextTaskId
    requires RefOk(x.createdBy, s.users) && RefOk(x.assignedTo, s.users) && RefOk(x.updatedBy, s.users)
    ensures Valid(s.(tasks := s.tasks + [x], nextTaskId := s.nextTaskId + 1))
  {
    var tasks' := s.tasks + [x];
    AppendFresh(s.tasks, TaskId, x);
    assert forall t :: t in tasks' ==> t in s.tasks || t == x;
    assert forall t :: t in tasks' ==> t.id < s.nextTaskId + 1;
    assert forall t :: t in tasks' ==>
      RefOk(t.createdBy, s.users) && RefOk(t.assignedTo, s.users) && RefOk(t.updatedBy, s.users);
    forall c | c in s.comments ensures FindTask(tasks', c.taskId).Some? {
      assert FindTask(s.tasks, c.taskId).Some?;
    }
  }

  /** Appending a comment under the next comment id, on an existing task and by an
      existing user, keeps the store valid. */
  lemma CommentInsertValid(s: Store, c: Comment)
    requires Valid(s)
    requires c.id == s.nextCommentId
    requires FindTask(s.tasks, c.taskId).Some? && FindUser(s.users, c.commentedBy).Some?
    ensures Valid(s.(comments := s.comments + [c], nextCommentId := s.nextCommentId + 1))
  {
    AppendFresh(s.comments, CommentId, c);
  }

  /** Appending a user under the next user id, with an unused email, keeps the store valid. */
  lemma UserInsertValid(s: Store, u: User)
    requires Valid(s)
    requires u.id == s.nextUserId
    requires forall v :: v in s.users ==> v.email != u.email
    ensures Valid(s.(users := s.users + [u], nextUserId := s.nextUserId + 1))
  {
    AppendFresh(s.users, UserId, u);
    AppendFresh(s.users, UserEmail, u);
    assert forall id :: FindUser(s.users, id).Some? ==> FindUser(s.users + [u], id).Some?;
  }

  // ---------------------------------------------------------------- operations

  /** Task creation: the creator and the checked assignee exist. */
  lemma CreateTaskKeepsValid(s: Store, ctx: SecurityContext, req: TaskService.TaskRequest, now: Timestamp)
    requires Valid(s)
    requires TaskService.CreateTask(s, ctx, req, now).Ok?
    ensures Valid(TaskService.CreateTask(s, ctx, req, now).value.0)
  {
    var s' := TaskService.CreateTask(s, ctx, req, now).value.0;
    var t := s'.tasks[|s.tasks|];
    assert s'.tasks == s.tasks + [t];
    TaskInsertValid(s, t);
  }

  /** Assignment: the chosen assignee exists. */
  lemma AssignTaskKeepsValid(s: Store, taskId: Id, userId: Option<Id>, assignmentType: Option<AssignmentType>,
                             reg: TaskService.StrategyFactory.Registry, draw: nat)
    requires Valid(s)
    requires TaskService.AssignTask(s, taskId, userId, assignmentType, reg, draw).Ok?
    ensures Valid(TaskService.AssignTask(s, taskId, userId, assignmentType, reg, draw).value.0)
  {
    var s' := TaskService.AssignTask(s, taskId, userId, assignmentType, reg, draw).value.0;
    var before := FindTask(s.tasks, taskId).value;
    var after := FindTask(s'.tasks, taskId).value;
    assert before in s.tasks;
    TaskSaveValid(s, after);
  }

  /** Task update: the recorded updater is the caller, who exists. */
  lemma UpdateTaskKeepsValid(s: Store, ctx: SecurityContext, id: Id, upd: TaskService.TaskUpdate)
    requires Valid(s)
    requires TaskService.UpdateTask(s, ctx, id, upd).Ok?
    ensures Valid(TaskService.UpdateTask(s, ctx, id, upd).value.0)
  {
    var s' := TaskService.UpdateTask(s, ctx, id, upd).value.0;
    var before := FindTask(s.tasks, id).value;
    var after := FindTask(s'.tasks, id).value;
    assert before in s.tasks;
    TaskSaveValid(s, after);
  }

  /** Comment creation: the task and the author exist. */
  lemma CreateCommentKeepsValid(s: Store, ctx: SecurityContext, taskId: Id, message: string, now: Timestamp)
    requires Valid(s)
    requires CommentService.CreateComment(s, ctx, taskId, message, now).Ok?
    ensures Valid(CommentService.CreateComment(s, ctx, taskId, message, now).value.0)
  {
    var caller := SecurityUtils.GetCurrentUser(ctx, s.users).value;
    CommentInsertValid(s, Comment(s.nextCommentId, message, taskId, caller.id, now));
  }

  /** Comment deletion: no row refers to a comment. */
  lemma DeleteCommentKeepsValid(s: Store, ctx: SecurityContext, taskId: Id, commentId: Id)
    requires Valid(s)
    requires CommentService.DeleteComment(s, ctx, taskId, commentId).Ok?
    ensures Valid(CommentService.DeleteComment(s, ctx, taskId, commentId).value)
  {
    DeleteKeepsKeysUnique(s.comments, CommentId, CommentId, commentId);
  }

  /** Role change: ids and emails are untouched. */
  lemma UpdateUserRoleKeepsValid(s: Store, id: Id, newRole: Role)
    requires Valid(s)
    requires UserService.UpdateUserRole(s, id, newRole).Ok?
    ensures Valid(UserService.UpdateUserRole(s, id, newRole).value.0)
  {
    UserSaveValid(s, FindUser(s.users, id).value.(role := newRole));
  }

  /** Status change: ids and emails are untouched. */
  lemma ToggleUserStatusKeepsValid(s: Store, id: Id, isActive: bool)
    requires Valid(s)
    requires UserService.ToggleUserStatus(s, id, isActive).Ok?
    ensures Valid(UserService.ToggleUserStatus(s, id, isActive).value.0)
  {
    UserSaveValid(s, FindUser(s.users, id).value.(isActive := isActive));
  }

  /** Password change: ids and emails are untouched. */
  lemma UpdatePasswordKeepsValid(s: Store, enc: UserService.PasswordEncoder, email: string,
                                 currentPassword: string, newPassword: string)
    requires Valid(s)
    requires UserService.UpdatePassword(s, enc, email, currentPassword, newPassword).Ok?
    ensures Valid(UserService.UpdatePassword(s, enc, email, currentPassword, newPassword).value.0)
  {
    var u := UserRepository.FindByEmail(s.users, email).value;
    FindUnique(s.users, UserId, u);
    UserSaveValid(s, u.(password := enc.encode(newPassword)));
  }

  /** Registration, refused or not: a taken email is refused before the insert. */
  lemma RegisterKeepsValid(s: Store, ctx: SecurityContext, req: AuthController.RegisterRequest,
                           encode: string -> string, now: Timestamp)
    requires Valid(s)
    ensures Valid(AuthController.Register(s, ctx, req, encode, now).store)
  {
    if AuthController.Register(s, ctx, req, encode, now).reply.body.success {
      UserInsertValid(s, AuthController.NewUser(s, req, encode, now));
    }
  }

  /** Seeding keeps the store valid provided the configured email is not already taken
      by a non-ADMIN user. */
  lemma InitDatabaseKeepsValid(s: Store, admin: DataInitializer.AdminDefaults, encode: string -> string, now: Timestamp)
    requires Valid(s)
    requires forall u :: u in s.users ==> u.email != admin.email || u.role == ADMIN
    ensures Valid(DataInitializer.InitDatabase(s, admin, encode, now))
  {
    if !DataInitializer.HasAdmin(s.users) {
      UserInsertValid(s, User(s.nextUserId, admin.name, admin.email, encode(admin.password), ADMIN, true, now));
    }
  }
}

=== FILE: strategies.dfy ===
/** The three task-assignment strategies. Each only selects an assignee and returns
    the task with `assignedTo` set; saving it is the caller's business. */
module AssignmentStrategies {
  import opened Wrappers
  import opened Tables
  import opened Domain
  import UserRepository

  datatype Strategy = ManualStrategy | RandomStrategy | LeastLoadedStrategy

  const UserIdRequired := "UserId is required for MANUAL assignment"
  const ManualNeedsUserRole := "Tasks can only be assigned to users with USER role"
  const NoUsersForRandom := "No active users available for random assignment"
  const NoUsersForLeastLoaded := "No active users available for assignment"
  const NoSuitableUser := "Unable to find suitable user for assignment"

  /** `getType` of each strategy. */
  function GetType(st: Strategy): (t: AssignmentType)
    ensures st == ManualStrategy ==> t == MANUAL
    ensures st == RandomStrategy ==> t == RANDOM
    ensures st == LeastLoadedStrategy ==> t == LEAST_LOADED
  {
    match st
    case ManualStrategy => MANUAL
    case RandomStrategy => RANDOM
    case LeastLoadedStrategy => LEAST_LOADED
  }

  /** The users the automatic strategies choose from: active users with role USER. */
  function Candidates(users: seq<User>): seq<User> {
    UserRepository.FindAllByRoleAndIsActiveTrue(users, USER)
  }

  // ---------------------------------------------------------------- manual

  /** MANUAL: the requested user, after an existence and a role check. The active
      flag is not consulted. */
  function ManualAssign(users: seq<User>, task: Task, userId: Option<Id>): (r: Result<Task, Error>)
    ensures userId.None? ==> r == Err(BadRequest(UserIdRequired))
    ensures userId.Some? && FindUser(users, userId.value).None? ==> r == Err(NotFound("User"))
    ensures userId.Some? && FindUser(users, userId.value).Some? && FindUser(users, userId.value).value.role != USER
      ==> r == Err(BadRequest(ManualNeedsUserRole))
    ensures r.Ok? <==>
      userId.Some? && FindUser(users, userId.value).Some? && FindUser(users, userId.value).value.role == USER
    ensures r.Ok? ==> userId.Some? && r.value == task.(assignedTo := userId)
    ensures r.Ok? ==> FindUser(users, userId.value).Some? && FindUser(users, userId.value).value.role == USER
  {
    if userId.None? then Err(BadRequest(UserIdRequired))
    else match FindUser(users, userId.value)
      case None => Err(NotFound("User"))
      case Some(u) =>
        if u.role != USER then Err(BadRequest(ManualNeedsUserRole))
        else Ok(task.(assignedTo := Some(u.id)))
  }

  /** The users differ at most in their active flags. */
  ghost predicate SameButActive(users: seq<User>, users': seq<User>) {
    |users'| == |users| && forall j :: 0 <= j < |users| ==> users'[j] == users[j].(isActive := users'[j].isActive)
  }

  /** A lookup by id finds the same row, up to its active flag, whatever the flags are. */
  lemma {:induction false} FindIgnoresActive(users: seq<User>, users': seq<User>, k: Id)
    requires SameButActive(users, users')
    ensures FindUser(users', k).Some? <==> FindUser(users, k).Some?
    ensures FindUser(users', k).Some? ==>
      FindUser(users', k).value == FindUser(users, k).value.(isActive := FindUser(users', k).value.isActive)
  {
    if |users| > 0 {
      assert users'[0] == users[0].(isActive := users'[0].isActive);
      if users[0].id != k {
        assert SameButActive(users[1..], users'[1..]) by {
          forall j | 0 <= j < |users[1..]|
            ensures users'[1..][j] == users[1..][j].(isActive := users'[1..][j].isActive)
          {
            assert users'[1..][j] == users'[j + 1] && users[1..][j] == users[j + 1];
          }
        }
        FindIgnoresActive(users[1..], users'[1..], k);
      }
    }
  }

  /** Manual assignment never consults the active flag: changing any users' flags
      leaves its outcome unchanged, so a deactivated USER is still accepted. */
  lemma ManualIgnoresActiveFlag(users: seq<User>, users': seq<User>, task: Task, userId: Option<Id>)
    requires SameButActive(users, users')
    ensures ManualAssign(users', task, userId) == ManualAssign(users, task, userId)
  {
    if userId.Some? {
      FindIgnoresActive(users, users', userId.value);
    }
  }

  // ---------------------------------------------------------------- random

  /** `random.nextInt(n)`: the draw is an oracle value reduced into `[0, n)`. */
  function NextInt(draw: nat, n: nat): (i: nat)
    requires n > 0
    ensures i < n
  {
    draw % n
  }

  /** RANDOM: any active USER, chosen by the draw. The requested user id plays no part. */
  function RandomAssign(users: seq<User>, task: Task, draw: nat): (r: Result<Task, Error>)
    ensures r.Err? <==> |Candidates(users)| == 0
    ensures r.Err? ==> r.error == BadRequest(NoUsersForRandom)
    ensures r.Ok? ==> exists u :: u in Candidates(users) && r.value == task.(assignedTo := Some(u.id))
  {
    var available := Candidates(users);
    if |available| == 0 then Err(BadRequest(NoUsersForRandom))
    else
      var chosen := available[NextInt(draw, |available|)];
      Ok(task.(assignedTo := Some(chosen.id)))
  }

  /** Every candidate is chosen by some draw. */
  lemma RandomReachesEveryCandidate(users: seq<User>, task: Task, k: nat)
    requires k < |Candidates(users)|
    ensures exists draw :: RandomAssign(users, task, draw) == Ok(task.(assignedTo := Some(Candidates(users)[k].id)))
  {
    assert NextInt(k, |Candidates(users)|) == k;
    assert RandomAssign(users, task, k) == Ok(task.(assignedTo := Some(Candidates(users)[k].id)));
  }

  // ---------------------------------------------------------------- least loaded

  /** A user's load: tasks assigned to that user whose status is not DONE. */
  function Load(tasks: seq<Task>, userId: Id): (n: nat)
    ensures n <= |tasks|
    ensures n == 0 <==> forall t :: t in tasks && t.assignedTo == Some(userId) ==> t.status == DONE
  {
    Count(tasks, (t: Task) => t.assignedTo == Some(userId) && t.status != DONE)
  }

  /** The loads of the candidates, in candidate order. */
  function Loads(users: seq<User>, tasks: seq<Task>): (loads: seq<nat>)
    ensures |loads| == |users|
    ensures forall i :: 0 <= i < |users| ==> loads[i] == Load(tasks, users[i].id)
  {
    seq(|users|, i requires 0 <= i < |users| => Load(tasks, users[i].id))
  }

  /** `k` is the first position holding the least value. */
  ghost predicate IsFirstMinimum(loads: seq<nat>, k: nat) {
    && k < |loads|
    && (forall j :: 0 <= j < |loads| ==> loads[k] <= loads[j])
    && (forall j :: 0 <= j < k ==> loads[k] < loads[j])
  }

  /** The remaining steps of `Stream.min`'s reduction: the accumulator `best` survives
      unless a later element is strictly smaller. */
  function MinFrom(loads: seq<nat>, best: nat, i: nat): (k: nat)
    requires best < i <= |loads|
    requires forall j :: 0 <= j < i ==> loads[best] <= loads[j]
    requires forall j :: 0 <= j < best ==> loads[best] < loads[j]
    ensures IsFirstMinimum(loads, k)
    decreases |loads| - i
  {
    if i == |loads| then best
    else if loads[best] <= loads[i] then MinFrom(loads, best, i + 1)
    else MinFrom(loads, i, i + 1)
  }

  /** `Stream.min` over the loads: empty exactly when there are no loads. */
  function StreamMin(loads: seq<nat>): (r: Option<nat>)
    ensures r.None? <==> |loads| == 0
    ensures r.Some? ==> IsFirstMinimum(loads, r.value)
  {
    if |loads| == 0 then None else Some(MinFrom(loads, 0, 1))
  }

  /** There is only one first minimum, so the choice is determined. */
  lemma FirstMinimumIsUnique(loads: seq<nat>, k1: nat, k2: nat)
    requires IsFirstMinimum(loads, k1) && IsFirstMinimum(loads, k2)
    ensures k1 == k2
  {
    assert loads[k1] <= loads[k2] && loads[k2] <= loads[k1];
  }

  /** LEAST_LOADED: the first candidate whose load is least. The requested user id
      plays no part, and with candidates present the fallback error cannot arise. */
  function LeastLoadedAssign(users: seq<User>, tasks: seq<Task>, task: Task): (r: Result<Task, Error>)
    ensures r.Err? <==> |Candidates(users)| == 0
    ensures r.Err? ==> r.error == BadRequest(NoUsersForLeastLoaded)
    ensures r.Ok? ==> exists k: nat ::
      (IsFirstMinimum(Loads(Candidates(users), tasks), k)
       && r.value == task.(assignedTo := Some(Candidates(users)[k].id)))
  {
    var available := Candidates(users);
    if |available| == 0 then Err(BadRequest(NoUsersForLeastLoaded))
    else match StreamMin(Loads(available, tasks))
      case None => Err(BadRequest(NoSuitableUser))
      case Some(k) => Ok(task.(assignedTo := Some(available[k].id)))
  }

  /** The chosen user's load is at most every candidate's load. */
  lemma LeastLoadedChoiceIsMinimal(users: seq<User>, tasks: seq<Task>, task: Task, c: User)
    requires LeastLoadedAssign(users, tasks, task).Ok?
    requires c in Candidates(users)
    ensures exists u ::
      (u in Candidates(users)
       && LeastLoadedAssign(users, tasks, task).value.assignedTo == Some(u.id)
       && Load(tasks, u.id) <= Load(tasks, c.id))
  {
    var cands := Candidates(users);
    var loads := Loads(cands, tasks);
    var r := LeastLoadedAssign(users, tasks, task);
    var k: nat :| IsFirstMinimum(loads, k) && r.value == task.(assignedTo := Some(cands[k].id));
    var j :| 0 <= j < |cands| && cands[j] == c;
    assert loads[k] <= loads[j];
    assert cands[k] in cands;
  }

  /** The requested user id only matters to MANUAL. */
  lemma AutomaticIgnoresUserId(st: Strategy, users: seq<User>, tasks: seq<Task>, task: Task,
                               userId: Option<Id>, draw: nat)
    requires st != ManualStrategy
    ensures Assign(st, users, tasks, task, userId, draw) == Assign(st, users, tasks, task, None, draw)
  {
  }

  /** Two open tasks for the first user, one DONE task for the second and one open
      task for the third: the loads are 2, 0 and 1. */
  function ExampleTasks(): seq<Task> {
    [Task(11, "a", None, OPEN, LOW, None, Some(1), None, 0),
     Task(12, "b", None, IN_PROGRESS, LOW, None, Some(1), None, 0),
     Task(13, "c", None, OPEN, LOW, None, Some(3), None, 0),
     Task(14, "d", None, DONE, LOW, None, Some(2), None, 0)]
  }

  lemma ExampleLoads()
    ensures Load(ExampleTasks(), 1) == 2
    ensures Load(ExampleTasks(), 2) == 0
    ensures Load(ExampleTasks(), 3) == 1
  {
    var ts := ExampleTasks();
    assert ts[1..][1..][1..][1..] == [];
  }

  function ExampleUsers(): seq<User> {
    [User(1, "u1", "u1@example.com", "h", USER, true, 0),
     User(2, "u2", "u2@example.com", "h", USER, true, 0),
     User(3, "u3", "u3@example.com", "h", USER, true, 0)]
  }

  lemma ExampleCandidateLoads()
    ensures Candidates(ExampleUsers()) == ExampleUsers()
    ensures Loads(ExampleUsers(), ExampleTasks()) == [2, 0, 1]
  {
    UserRepository.AllActiveOfRole(ExampleUsers(), USER);
    ExampleLoads();
  }

  lemma ExampleMinimum()
    ensures StreamMin([2, 0, 1]) == Some(1)
  {
    var loads: seq<nat> := [2, 0, 1];
    assert MinFrom(loads, 1, 3) == 1;
    assert MinFrom(loads, 1, 2) == 1;
  }

  /** Three active users with 2, 0 and 1 open tasks: the second is chosen. */
  lemma LeastLoadedExample(task: Task)
    ensures LeastLoadedAssign(ExampleUsers(), ExampleTasks(), task) == Ok(task.(assignedTo := Some(2)))
  {
    ExampleCandidateLoads();
    ExampleMinimum();
  }

  // ---------------------------------------------------------------- dispatch

  /** `strategy.assign(task, userId)`: only `assignedTo` changes, and the assignee
      always exists with role USER. */
  function Assign(st: Strategy, users: seq<User>, tasks: seq<Task>, task: Task, userId: Option<Id>, draw: nat)
    : (r: Result<Task, Error>)
    ensures r.Ok? ==> r.value == task.(assignedTo := r.value.assignedTo)
    ensures r.Ok? ==> AssigneeIsUserRole(r.value, users)
  {
    match st
    case ManualStrategy => ManualAssign(users, task, userId)
    case RandomStrategy => RandomAssign(users, task, draw)
    case LeastLoadedStrategy => LeastLoadedAssign(users, tasks, task)
  }
}

=== FILE: strategy_factory.dfy ===
/** The strategy registry: a map from assignment type to the strategy that reports
    it, built once from every registered strategy, and the lookup that services use. */
module StrategyFactory {
  import opened Wrappers
  import opened Domain
  import opened AssignmentStrategies

  type Registry = map<AssignmentType, Strategy>

  const TypeRequired := "Assignment type cannot be null"
  const UnsupportedType := "Invalid or unsupported assignment type: "
  const DuplicateKey := "Duplicate key"

  /** The enum constant's name, as string concatenation renders it. */
  function TypeName(t: AssignmentType): string {
    match t
    case MANUAL => "MANUAL"
    case RANDOM => "RANDOM"
    case LEAST_LOADED => "LEAST_LOADED"
  }

  /** No two registered strategies report the same type. */
  ghost predicate DistinctTypes(strategies: seq<Strategy>) {
    forall i, j :: 0 <= i < j < |strategies| ==> GetType(strategies[i]) != GetType(strategies[j])
  }

  /** Every entry is keyed by its strategy's own type. */
  ghost predicate Consistent(reg: Registry) {
    forall t :: t in reg ==> GetType(reg[t]) == t
  }

  /** The constructor's `toMap(getType, identity)`: strategies are added in order, and a
      second strategy with a type already present makes construction fail. */
  function BuildRegistry(strategies: seq<Strategy>): (r: Result<Registry, Error>)
    ensures r.Ok? <==> DistinctTypes(strategies)
    ensures r.Err? ==> r.error == Unexpected(DuplicateKey)
    ensures r.Ok? ==> Consistent(r.value)
    ensures r.Ok? ==> forall t :: t in r.value <==> exists st :: st in strategies && GetType(st) == t
    ensures r.Ok? ==> forall t :: t in r.value ==> r.value[t] in strategies
  {
    if |strategies| == 0 then Ok(map[])
    else
      var init := strategies[..|strategies| - 1];
      var last := strategies[|strategies| - 1];
      assert forall st :: st in strategies <==> st in init || st == last;
      match BuildRegistry(init)
      case Err(e) =>
        assert !DistinctTypes(strategies) by {
          var i, j :| 0 <= i < j < |init| && GetType(init[i]) == GetType(init[j]);
          assert strategies[i] == init[i] && strategies[j] == init[j];
        }
        Err(e)
      case Ok(reg) =>
        if GetType(last) in reg then
          assert !DistinctTypes(strategies) by {
            var st :| st in init && GetType(st) == GetType(last);
            var i :| 0 <= i < |init| && init[i] == st;
            assert strategies[i] == st;
          }
          Err(Unexpected(DuplicateKey))
        else
          assert DistinctTypes(strategies) by {
            forall i, j | 0 <= i < j < |strategies|
              ensures GetType(strategies[i]) != GetType(strategies[j])
            {
              if j < |strategies| - 1 {
                assert strategies[i] == init[i] && strategies[j] == init[j];
              } else {
                assert strategies[i] in init;
              }
            }
          }
          Ok(reg[GetType(last) := last])
  }

  /** `getStrategy`: the strategy registered for the type, failing on a null or an
      unregistered type. */
  function GetStrategy(reg: Registry, t: Option<AssignmentType>): (r: Result<Strategy, Error>)
    ensures t.None? ==> r == Err(BadRequest(TypeRequired))
    ensures t.Some? && t.value !in reg ==> r == Err(BadRequest(UnsupportedType + TypeName(t.value)))
    ensures r.Ok? <==> t.Some? && t.value in reg
    ensures r.Ok? ==> r.value == reg[t.value]
    ensures r.Ok? && Consistent(reg) ==> GetType(r.value) == t.value
  {
    match t
    case None => Err(BadRequest(TypeRequired))
    case Some(ty) =>
      if ty in reg then Ok(reg[ty]) else Err(BadRequest(UnsupportedType + TypeName(ty)))
  }

  /** With the three strategies registered, in any order, construction succeeds and every
      assignment type resolves to the strategy reporting it. */
  lemma EveryTypeResolves(strategies: seq<Strategy>)
    requires DistinctTypes(strategies)
    requires ManualStrategy in strategies && RandomStrategy in strategies && LeastLoadedStrategy in strategies
    ensures BuildRegistry(strategies).Ok?
    ensures forall t :: GetStrategy(BuildRegistry(strategies).value, Some(t)).Ok?
    ensures forall t :: GetType(GetStrategy(BuildRegistry(strategies).value, Some(t)).value) == t
  {
    var reg := BuildRegistry(strategies).value;
    assert GetType(ManualStrategy) == MANUAL && GetType(RandomStrategy) == RANDOM
      && GetType(LeastLoadedStrategy) == LEAST_LOADED;
    forall t ensures t in reg {
      match t
      case MANUAL => assert GetType(ManualStrategy) == t;
      case RANDOM => assert GetType(RandomStrategy) == t;
      case LEAST_LOADED => assert GetType(LeastLoadedStrategy) == t;
    }
  }

  /** The registry depends only on which strategies are registered, not on their
      order: each type can map only to the one strategy that reports it. */
  lemma RegistryIgnoresOrder(s1: seq<Strategy>, s2: seq<Strategy>)
    requires DistinctTypes(s1) && DistinctTypes(s2)
    requires forall st :: st in s1 <==> st in s2
    ensures BuildRegistry(s1) == BuildRegistry(s2)
  {
    var r1 := BuildRegistry(s1).value;
    var r2 := BuildRegistry(s2).value;
    assert r1.Keys == r2.Keys by {
      forall t ensures t in r1 <==> t in r2 {
        if t in r1 {
          var st :| st in s1 && GetType(st) == t;
          assert st in s2;
        }
        if t in r2 {
          var st :| st in s2 && GetType(st) == t;
          assert st in s1;
        }
      }
    }
    forall t | t in r1 ensures r1[t] == r2[t] {
      assert GetType(r1[t]) == GetType(r2[t]);
    }
    assert r1 == r2;
  }
}

=== FILE: tables.dfy ===
/** A repository table as a sequence of rows in storage order. Rows are found by a
    key function (the entity's id, or a unique column such as an email). */
module Tables {
  import opened Wrappers

  /** No two rows share a key. */
  ghost predicate UniqueKeys<T, K>(rows: seq<T>, key: T -> K) {
    forall i, j :: 0 <= i < j < |rows| ==> key(rows[i]) != key(rows[j])
  }

  /** The first row whose key is `k`, as `findById` / `findByEmail` return it. */
  function Find<T(!new), K(==)>(rows: seq<T>, key: T -> K, k: K): (r: Option<T>)
    ensures r.Some? ==> r.value in rows && key(r.value) == k
    ensures r.None? <==> forall x :: x in rows ==> key(x) != k
  {
    if |rows| == 0 then None
    else if key(rows[0]) == k then Some(rows[0])
    else Find(rows[1..], key, k)
  }

  /** With unique keys, the row found is the only row with that key. */
  lemma {:induction false} FindUnique<T(!new), K(!new)>(rows: seq<T>, key: T -> K, x: T)
    requires UniqueKeys(rows, key)
    requires x in rows
    ensures Find(rows, key, key(x)) == Some(x)
  {
    if rows[0] != x {
      assert x in rows[1..];
      forall i, j | 0 <= i < j < |rows[1..]|
        ensures key(rows[1..][i]) != key(rows[1..][j])
      {
        assert rows[1..][i] == rows[i + 1] && rows[1..][j] == rows[j + 1];
      }
      FindUnique(rows[1..], key, x);
      var i :| 0 <= i < |rows[1..]| && rows[1..][i] == x;
      assert rows[i + 1] == x;
    }
  }

  /** A repository `save`: replaces the first row with the same key, or appends. */
  function Save<T(!new), K(==,!new)>(rows: seq<T>, key: T -> K, x: T): (r: seq<T>)
    ensures Find(r, key, key(x)) == Some(x)
    ensures forall k :: k != key(x) ==> Find(r, key, k) == Find(rows, key, k)
    ensures forall y :: y in r ==> y in rows || y == x
    ensures x in r
    ensures Find(rows, key, key(x)).None? ==> r == rows + [x]
    ensures Find(rows, key, key(x)).Some? ==> |r| == |rows|
  {
    if |rows| == 0 then [x]
    else if key(rows[0]) == key(x) then [x] + rows[1..]
    else [rows[0]] + Save(rows[1..], key, x)
  }

  /** Saving the row that a lookup returns leaves the table as it was. */
  lemma {:induction false} SaveFoundRow<T(!new), K(!new)>(rows: seq<T>, key: T -> K, x: T)
    requires Find(rows, key, key(x)) == Some(x)
    ensures Save(rows, key, x) == rows
  {
    if key(rows[0]) != key(x) {
      SaveFoundRow(rows[1..], key, x);
      assert [rows[0]] + rows[1..] == rows;
    } else {
      assert [x] + rows[1..] == rows;
    }
  }

  /** A lookup in a table with one row appended: the old table's answer if it had one,
      otherwise the new row if its key matches. */
  lemma {:induction false} FindAppend<T(!new), K(!new)>(rows: seq<T>, key: T -> K, x: T, k: K)
    ensures Find(rows + [x], key, k) ==
      (if Find(rows, key, k).Some? then Find(rows, key, k) else if key(x) == k then Some(x) else None)
  {
    if |rows| > 0 {
      assert (rows + [x])[0] == rows[0];
      assert (rows + [x])[1..] == rows[1..] + [x];
      FindAppend(rows[1..], key, x, k);
    }
  }

  /** Appending a row with a new key keeps keys unique; the row is found by its key and
      every other key finds what it found before. */
  lemma AppendFresh<T(!new), K(!new)>(rows: seq<T>, key: T -> K, x: T)
    requires UniqueKeys(rows, key)
    requires forall y :: y in rows ==> key(y) != key(x)
    ensures UniqueKeys(rows + [x], key)
    ensures Find(rows + [x], key, key(x)) == Some(x)
    ensures forall k :: k != key(x) ==> Find(rows + [x], key, k) == Find(rows, key, k)
  {
    var r := rows + [x];
    forall i, j | 0 <= i < j < |r| ensures key(r[i]) != key(r[j]) {
      assert r[i] == rows[i];
      if j < |rows| {
        assert r[j] == rows[j];
      } else {
        assert rows[i] in rows;
      }
    }
    FindAppend(rows, key, x, key(x));
    forall k | k != key(x) ensures Find(r, key, k) == Find(rows, key, k) {
      FindAppend(rows, key, x, k);
    }
  }

  /** A repository `delete` of the entity with key `k`: every row with that key goes. */
  function Delete<T(!new), K(==,!new)>(rows: seq<T>, key: T -> K, k: K): (r: seq<T>)
    ensures forall y :: y in r <==> y in rows && key(y) != k
    ensures Find(r, key, k).None?
    ensures forall k' :: k' != k ==> Find(r, key, k') == Find(rows, key, k')
  {
    if |rows| == 0 then []
    else if key(rows[0]) == k then Delete(rows[1..], key, k)
    else [rows[0]] + Delete(rows[1..], key, k)
  }

  /** The rows satisfying `p`, in storage order: a derived query. */
  function Filter<T(!new)>(rows: seq<T>, p: T -> bool): (r: seq<T>)
    ensures forall x :: x in r <==> x in rows && p(x)
    ensures |r| <= |rows|
  {
    if |rows| == 0 then []
    else if p(rows[0]) then [rows[0]] + Filter(rows[1..], p)
    else Filter(rows[1..], p)
  }

  /** The number of rows satisfying `p`: a `count()` over a query's stream. */
  function Count<T>(rows: seq<T>, p: T -> bool): (n: nat)
    ensures n <= |rows|
    ensures n == 0 <==> forall x :: x in rows ==> !p(x)
  {
    if |rows| == 0 then 0
    else (if p(rows[0]) then 1 else 0) + Count(rows[1..], p)
  }

  /** A count is the length of the matching query. */
  lemma {:induction false} CountIsFilterLength<T(!new)>(rows: seq<T>, p: T -> bool)
    ensures Count(rows, p) == |Filter(rows, p)|
  {
    if |rows| > 0 {
      CountIsFilterLength(rows[1..], p);
    }
  }

  /** A filter every row passes returns the whole table. */
  lemma {:induction false} FilterAll<T(!new)>(rows: seq<T>, p: T -> bool)
    requires forall x :: x in rows ==> p(x)
    ensures Filter(rows, p) == rows
  {
    if |rows| > 0 {
      assert rows[0] in rows;
      assert forall x :: x in rows[1..] ==> x in rows;
      FilterAll(rows[1..], p);
      assert [rows[0]] + rows[1..] == rows;
    }
  }

  /** Two filters that agree on every row return the same rows. */
  lemma {:induction false} FilterCongruent<T(!new)>(rows: seq<T>, p: T -> bool, q: T -> bool)
    requires forall x :: x in rows ==> p(x) == q(x)
    ensures Filter(rows, p) == Filter(rows, q)
  {
    if |rows| > 0 {
      assert rows[0] in rows;
      assert forall x :: x in rows[1..] ==> x in rows;
      FilterCongruent(rows[1..], p, q);
    }
  }

  /** The rows after the first keep unique keys, none of them the first row's. */
  lemma UniqueTail<T, K>(rows: seq<T>, key: T -> K)
    requires UniqueKeys(rows, key) && |rows| > 0
    ensures UniqueKeys(rows[1..], key)
    ensures forall y :: y in rows[1..] ==> key(y) != key(rows[0])
  {
    var tail := rows[1..];
    forall i, j | 0 <= i < j < |tail| ensures key(tail[i]) != key(tail[j]) {
      assert tail[i] == rows[i + 1] && tail[j] == rows[j + 1];
    }
    forall y | y in tail ensures key(y) != key(rows[0]) {
      var j :| 0 <= j < |tail| && tail[j] == y;
      assert rows[j + 1] == y;
    }
  }

  /** A row whose key no other row has can head a table with unique keys. */
  lemma UniqueCons<T, K>(h: T, tail: seq<T>, key: T -> K)
    requires UniqueKeys(tail, key)
    requires forall y :: y in tail ==> key(y) != key(h)
    ensures UniqueKeys([h] + tail, key)
  {
    var r := [h] + tail;
    forall i, j | 0 <= i < j < |r| ensures key(r[i]) != key(r[j]) {
      assert r[j] == tail[j - 1];
      assert tail[j - 1] in tail;
      if i > 0 {
        assert r[i] == tail[i - 1];
      }
    }
  }

  /** Saving keeps keys unique. */
  lemma {:induction false} SaveKeepsKeysUnique<T(!new), K(!new)>(rows: seq<T>, key: T -> K, x: T)
    requires UniqueKeys(rows, key)
    ensures UniqueKeys(Save(rows, key, x), key)
  {
    if |rows| > 0 {
      var tail := rows[1..];
      UniqueTail(rows, key);
      if key(rows[0]) != key(x) {
        SaveKeepsKeysUnique(tail, key, x);
        var s' := Save(tail, key, x);
        assert Save(rows, key, x) == [rows[0]] + s';
        UniqueCons(rows[0], s', key);
      } else {
        assert Save(rows, key, x) == [x] + tail;
        UniqueCons(x, tail, key);
      }
    }
  }

  /** Replacing a row by one with the same second key keeps that second key unique
      (an update that does not touch a unique column). */
  lemma {:induction false} SaveKeepsOtherKeyUnique<T(!new), K(!new), L>(rows: seq<T>, key: T -> K, other: T -> L, x: T)
    requires UniqueKeys(rows, key)
    requires UniqueKeys(rows, other)
    requires Find(rows, key, key(x)).Some?
    requires other(Find(rows, key, key(x)).value) == other(x)
    ensures UniqueKeys(Save(rows, key, x), other)
  {
    var tail := rows[1..];
    UniqueTail(rows, key);
    UniqueTail(rows, other);
    if key(rows[0]) != key(x) {
      assert Find(rows, key, key(x)) == Find(tail, key, key(x));
      SaveKeepsOtherKeyUnique(tail, key, other, x);
      var s' := Save(tail, key, x);
      assert Save(rows, key, x) == [rows[0]] + s';
      forall y | y in s' ensures other(y) != other(rows[0]) {
        if y != x {
          assert y in tail;
        } else {
          assert Find(tail, key, key(x)).value in tail;
        }
      }
      UniqueCons(rows[0], s', other);
    } else {
      assert Save(rows, key, x) == [x] + tail;
      assert Find(rows, key, key(x)) == Some(rows[0]);
      UniqueCons(x, tail, other);
    }
  }

  /** Deleting rows keeps keys unique. */
  lemma {:induction false} DeleteKeepsKeysUnique<T(!new), K(!new), L>(rows: seq<T>, key: T -> K, other: T -> L, k: K)
    requires UniqueKeys(rows, other)
    ensures UniqueKeys(Delete(rows, key, k), other)
  {
    if |rows| > 0 {
      var tail := rows[1..];
      UniqueTail(rows, other);
      DeleteKeepsKeysUnique(tail, key, other, k);
      var d := Delete(tail, key, k);
      if key(rows[0]) != k {
        assert Delete(rows, key, k) == [rows[0]] + d;
        forall y | y in d ensures other(y) != other(rows[0]) {
          assert y in tail;
        }
        UniqueCons(rows[0], d, other);
      }
    }
  }
}

=== FILE: task_controller.dfy ===
/** The task endpoints: creation and assignment are MANAGER-only at the method level;
    reading and updating are open to any authenticated caller and left to the service. */
module TaskController {
  import opened Wrappers
  import opened Domain
  import opened Mappers
  import opened ExceptionHandler
  import opened Endpoints
  import TaskService
  import StrategyFactory

  const Created := "Task created successfully"
  const Retrieved := "Task retrieved successfully"
  const ListRetrieved := "Tasks retrieved successfully"
  const Updated := "Task updated successfully"

  /** The success message of an assignment, naming the strategy used. */
  function AssignedMessage(t: AssignmentType): string {
    "Task assigned successfully using " + StrategyFactory.TypeName(t) + " strategy"
  }

  /** POST /api/tasks: a MANAGER creates a task; 201 with the new task. */
  function CreateTask(s: Store, ctx: SecurityContext, req: TaskService.TaskRequest, now: Timestamp)
    : (out: Response<TaskResponse>)
    ensures !HasRole(ctx, MANAGER) ==> out == Response(s, Reply(403, ApiResponse(false, AccessDeniedText, None, None)))
    ensures out.reply.body.success <==> HasRole(ctx, MANAGER) && TaskService.CreateTask(s, ctx, req, now).Ok?
    ensures out.reply.body.success ==>
      var r := TaskService.CreateTask(s, ctx, req, now).value;
      out.reply.status == 201 && out.reply.body.data == Some(r.1) && out.store == r.0
    ensures !out.reply.body.success ==> out.store == s && out.reply.body.data.None?
    ensures HasRole(ctx, MANAGER) && !out.reply.body.success ==>
      out.reply == Handle(TaskService.CreateTask(s, ctx, req, now).error)
  {
    if !HasRole(ctx, MANAGER) then Denied(s)
    else Written(s, TaskService.CreateTask(s, ctx, req, now), 201, Created)
  }

  /** PUT /api/tasks/{id}/assign: a MANAGER assigns with the named strategy; 200. */
  function AssignTask(s: Store, ctx: SecurityContext, id: Id, userId: Option<Id>, t: AssignmentType,
                      reg: StrategyFactory.Registry, draw: nat)
    : (out: Response<TaskResponse>)
    ensures !HasRole(ctx, MANAGER) ==> out == Response(s, Reply(403, ApiResponse(false, AccessDeniedText, None, None)))
    ensures out.reply.body.success <==>
      HasRole(ctx, MANAGER) && TaskService.AssignTask(s, id, userId, Some(t), reg, draw).Ok?
    ensures out.reply.body.success ==>
      var r := TaskService.AssignTask(s, id, userId, Some(t), reg, draw).value;
      && out.reply.status == 200 && out.reply.body.message == AssignedMessage(t)
      && out.reply.body.data == Some(r.1) && out.store == r.0
    ensures !out.reply.body.success ==> out.store == s
    ensures HasRole(ctx, MANAGER) && !out.reply.body.success ==>
      out.reply == Handle(TaskService.AssignTask(s, id, userId, Some(t), reg, draw).error)
  {
    if !HasRole(ctx, MANAGER) then Denied(s)
    else Written(s, TaskService.AssignTask(s, id, userId, Some(t), reg, draw), 200, AssignedMessage(t))
  }

  /** GET /api/tasks: the caller's visible, filtered tasks. The caller's name is logged
      before the service runs, so a missing authentication fails there. */
  function GetAllTasks(s: Store, ctx: SecurityContext, status: Option<TaskStatus>, priority: Option<TaskPriority>,
                       assignee: Option<Id>)
    : (out: Response<seq<TaskResponse>>)
    ensures out.store == s
    ensures ctx.None? ==> out.reply == Handle(Unexpected(""))
    ensures out.reply.body.success <==> ctx.Some? && TaskService.GetAllTasks(s, ctx, status, priority, assignee).Ok?
    ensures out.reply.body.success ==>
      out.reply.status == 200 && out.reply.body.data == Some(TaskService.GetAllTasks(s, ctx, status, priority, assignee).value)
    ensures ctx.Some? && !out.reply.body.success ==>
      out.reply == Handle(TaskService.GetAllTasks(s, ctx, status, priority, assignee).error)
  {
    if ctx.None? then NullAuthentication(s)
    else Read(s, TaskService.GetAllTasks(s, ctx, status, priority, assignee), ListRetrieved)
  }

  /** GET /api/tasks/{id}; the caller's name is logged first. */
  function GetTaskById(s: Store, ctx: SecurityContext, id: Id): (out: Response<TaskResponse>)
    ensures out.store == s
    ensures ctx.None? ==> out.reply == Handle(Unexpected(""))
    ensures out.reply.body.success <==> ctx.Some? && TaskService.GetTaskById(s, ctx, id).Ok?
    ensures ctx.Some? && !out.reply.body.success ==> out.reply == Handle(TaskService.GetTaskById(s, ctx, id).error)
  {
    if ctx.None? then NullAuthentication(s)
    else Read(s, TaskService.GetTaskById(s, ctx, id), Retrieved)
  }

  /** PUT /api/tasks/{id}: no method-level gate; the caller's name is logged first and
      the service decides. */
  function UpdateTask(s: Store, ctx: SecurityContext, id: Id, upd: TaskService.TaskUpdate)
    : (out: Response<TaskResponse>)
    ensures ctx.None? ==> out == Response(s, Handle(Unexpected("")))
    ensures out.reply.body.success <==> ctx.Some? && TaskService.UpdateTask(s, ctx, id, upd).Ok?
    ensures out.reply.body.success ==> out.store == TaskService.UpdateTask(s, ctx, id, upd).value.0
    ensures ctx.Some? && !out.reply.body.success ==>
      out.store == s && out.reply == Handle(TaskService.UpdateTask(s, ctx, id, upd).error)
  {
    if ctx.None? then NullAuthentication(s)
    else Written(s, TaskService.UpdateTask(s, ctx, id, upd), 200, Updated)
  }

  /** Only a MANAGER changes the store through creation or assignment: every other
      caller is refused before the service runs. */
  lemma OnlyManagersCreateOrAssign(s: Store, ctx: SecurityContext, req: TaskService.TaskRequest, now: Timestamp,
                                   id: Id, userId: Option<Id>, t: AssignmentType, reg: StrategyFactory.Registry, draw: nat)
    requires ctx.Some? && ctx.value.role != MANAGER
    ensures CreateTask(s, ctx, req, now).store == s && CreateTask(s, ctx, req, now).reply.status == 403
    ensures AssignTask(s, ctx, id, userId, t, reg, draw).store == s
    ensures AssignTask(s, ctx, id, userId, t, reg, draw).reply.status == 403
  {
  }
}

=== FILE: task_service.dfy ===
/** The task use cases: create, assign, view, update and list. Each is one atomic
    store transition; a failure returns no store, so nothing it wrote survives. */
module TaskService {
  import opened Wrappers
  import opened Tables
  import opened Domain
  import opened Policy
  import opened Mappers
  import SecurityUtils
  import AssignmentStrategies
  import StrategyFactory

  const OnlyUsersAssignable := "Tasks can only be assigned to a user"
  const ViewDenied := "Access denied: Users can only view tasks assigned to them"
  const AdminCannotUpdate := "Access denied: Admin cannot update tasks"
  const UpdateDenied := "Access denied: Users can only update tasks assigned to them"
  const StatusOnly := "Access denied: Users can only update task status"

  /** The creation request; title and priority have passed bean validation. */
  datatype TaskRequest = TaskRequest(
    title: string,
    description: Option<string>,
    priority: TaskPriority,
    assignedToUserId: Option<Id>)

  /** A partial update: `None` leaves the field as it is. */
  datatype TaskUpdate = TaskUpdate(
    title: Option<string>,
    description: Option<string>,
    status: Option<TaskStatus>,
    priority: Option<TaskPriority>)

  /** The update names a field other than status. */
  predicate TouchesNonStatus(upd: TaskUpdate) {
    upd.title.Some? || upd.description.Some? || upd.priority.Some?
  }

  /** `taskRepository.save` of an existing or new task; the other tables stay. */
  function SaveTask(s: Store, t: Task): (s': Store)
    ensures FindTask(s'.tasks, t.id) == Some(t)
    ensures forall id :: id != t.id ==> FindTask(s'.tasks, id) == FindTask(s.tasks, id)
    ensures s'.users == s.users && s'.comments == s.comments
    ensures s'.nextUserId == s.nextUserId && s'.nextTaskId == s.nextTaskId && s'.nextCommentId == s.nextCommentId
  {
    s.(tasks := Save(s.tasks, TaskId, t))
  }

  /** The task row `createTask` inserts: a new entity is always inserted, under the
      next value of the identity column. */
  function NewTask(s: Store, creator: User, req: TaskRequest, now: Timestamp): Task {
    Task(s.nextTaskId, req.title, req.description, OPEN, req.priority, Some(creator.id), req.assignedToUserId, None, now)
  }

  /** `createTask`: resolves the caller, checks the optional assignee, then inserts an
      OPEN task created by the caller under the next task id. */
  function CreateTask(s: Store, ctx: SecurityContext, req: TaskRequest, now: Timestamp)
    : (r: Result<(Store, TaskResponse), Error>)
    ensures SecurityUtils.GetCurrentUser(ctx, s.users).Err? ==>
      r == Err(SecurityUtils.GetCurrentUser(ctx, s.users).error)
    ensures SecurityUtils.GetCurrentUser(ctx, s.users).Ok? && req.assignedToUserId.Some? ==>
      && (FindUser(s.users, req.assignedToUserId.value).None? ==> r == Err(NotFound("User")))
      && ((FindUser(s.users, req.assignedToUserId.value).Some?
           && FindUser(s.users, req.assignedToUserId.value).value.role != USER)
          ==> r == Err(BadRequest(OnlyUsersAssignable)))
    ensures r.Ok? <==>
      && SecurityUtils.GetCurrentUser(ctx, s.users).Ok?
      && (req.assignedToUserId.Some? ==>
            (FindUser(s.users, req.assignedToUserId.value).Some?
             && FindUser(s.users, req.assignedToUserId.value).value.role == USER))
    ensures r.Ok? ==>
      var creator := SecurityUtils.GetCurrentUser(ctx, s.users).value;
      var tasks' := r.value.0.tasks;
      && |tasks'| == |s.tasks| + 1 && tasks'[..|s.tasks|] == s.tasks
      && var t := tasks'[|s.tasks|];
      && t.id == s.nextTaskId
      && t.title == req.title && t.description == req.description && t.priority == req.priority
      && t.status == OPEN && t.createdBy == Some(creator.id)
      && t.assignedTo == req.assignedToUserId && t.updatedBy.None? && t.createdAt == now
      && r.value.1 == ToResponseDTO(t, s.users)
    ensures r.Ok? && req.assignedToUserId.Some? ==> AssigneeIsUserRole(r.value.0.tasks[|s.tasks|], s.users)
    ensures r.Ok? ==> r.value.0.users == s.users && r.value.0.comments == s.comments
    ensures r.Ok? ==> r.value.0.nextTaskId == s.nextTaskId + 1
  {
    var creator :- SecurityUtils.GetCurrentUser(ctx, s.users);
    var assigneeOk: Result<(), Error> :=
      if req.assignedToUserId.None? then Ok(())
      else match FindUser(s.users, req.assignedToUserId.value)
        case None => Err(NotFound("User"))
        case Some(u) => if u.role != USER then Err(BadRequest(OnlyUsersAssignable)) else Ok(());
    if assigneeOk.Err? then Err(assigneeOk.error)
    else
      var t := NewTask(s, creator, req, now);
      var s' := s.(tasks := s.tasks + [t], nextTaskId := s.nextTaskId + 1);
      Ok((s', ToResponseDTO(t, s.users)))
  }

  /** `assignTask`: task lookup, then strategy lookup, then the strategy; the one save
      stores the task with its new assignee and nothing else about it changes. */
  function AssignTask(s: Store, taskId: Id, userId: Option<Id>, assignmentType: Option<AssignmentType>,
                      reg: StrategyFactory.Registry, draw: nat)
    : (r: Result<(Store, TaskResponse), Error>)
    ensures FindTask(s.tasks, taskId).None? ==> r == Err(NotFound("Task"))
    ensures FindTask(s.tasks, taskId).Some? && StrategyFactory.GetStrategy(reg, assignmentType).Err? ==>
      r == Err(StrategyFactory.GetStrategy(reg, assignmentType).error)
    ensures r.Ok? ==> FindTask(s.tasks, taskId).Some? && StrategyFactory.GetStrategy(reg, assignmentType).Ok?
    ensures FindTask(s.tasks, taskId).Some? && StrategyFactory.GetStrategy(reg, assignmentType).Ok? ==>
      var chosen := AssignmentStrategies.Assign(StrategyFactory.GetStrategy(reg, assignmentType).value,
                                                s.users, s.tasks, FindTask(s.tasks, taskId).value, userId, draw);
      && (r.Ok? <==> chosen.Ok?)
      && (chosen.Err? ==> r == Err(chosen.error))
      && (chosen.Ok? ==> FindTask(r.value.0.tasks, taskId) == Some(chosen.value))
    ensures r.Ok? ==>
      var before := FindTask(s.tasks, taskId).value;
      var after := FindTask(r.value.0.tasks, taskId);
      && after.Some?
      && after.value == before.(assignedTo := after.value.assignedTo)
      && AssigneeIsUserRole(after.value, s.users)
      && r.value.1 == ToResponseDTO(after.value, s.users)
    ensures r.Ok? ==> forall id :: id != taskId ==> FindTask(r.value.0.tasks, id) == FindTask(s.tasks, id)
    ensures r.Ok? ==>
      (r.value.0.users == s.users && r.value.0.comments == s.comments && r.value.0.nextTaskId == s.nextTaskId)
  {
    match FindTask(s.tasks, taskId)
    case None => Err(NotFound("Task"))
    case Some(task) =>
      var strategy :- StrategyFactory.GetStrategy(reg, assignmentType);
      var chosen :- AssignmentStrategies.Assign(strategy, s.users, s.tasks, task, userId, draw);
      Ok((SaveTask(s, chosen), ToResponseDTO(chosen, s.users)))
  }

  /** `getTaskById`: existence first, then identity, then the view rule. */
  function GetTaskById(s: Store, ctx: SecurityContext, id: Id): (r: Result<TaskResponse, Error>)
    ensures FindTask(s.tasks, id).None? ==> r == Err(NotFound("Task"))
    ensures FindTask(s.tasks, id).Some? && SecurityUtils.GetCurrentUser(ctx, s.users).Err? ==>
      r == Err(SecurityUtils.GetCurrentUser(ctx, s.users).error)
    ensures r.Ok? <==>
      && FindTask(s.tasks, id).Some?
      && SecurityUtils.GetCurrentUser(ctx, s.users).Ok?
      && MayViewTask(SecurityUtils.GetCurrentUser(ctx, s.users).value, FindTask(s.tasks, id).value)
    ensures r.Ok? ==> r.value == ToResponseDTO(FindTask(s.tasks, id).value, s.users)
    ensures r.Err? && FindTask(s.tasks, id).Some? && SecurityUtils.GetCurrentUser(ctx, s.users).Ok? ==>
      r == Err(Forbidden(ViewDenied))
  {
    match FindTask(s.tasks, id)
    case None => Err(NotFound("Task"))
    case Some(task) =>
      var caller :- SecurityUtils.GetCurrentUser(ctx, s.users);
      if caller.role == USER && !(task.assignedTo.Some? && task.assignedTo.value == caller.id) then
        Err(Forbidden(ViewDenied))
      else
        Ok(ToResponseDTO(task, s.users))
  }

  /** The rule an update is allowed under: MANAGER any update, the assignee USER a
      status-only one, nobody else anything. */
  predicate UpdateAllowed(caller: User, t: Task, upd: TaskUpdate) {
    && (TouchesNonStatus(upd) ==> MayUpdateTaskFields(caller, t))
    && MayUpdateTaskStatus(caller, t)
  }

  /** A MANAGER's edit: every field the update names is overwritten, and the editor
      is recorded as the updater. */
  function EditByManager(t: Task, upd: TaskUpdate, editor: Id): (t': Task)
    ensures t'.id == t.id && t'.createdBy == t.createdBy && t'.assignedTo == t.assignedTo
    ensures t'.createdAt == t.createdAt && t'.updatedBy == Some(editor)
    ensures t'.title == upd.title.GetOr(t.title) && t'.status == upd.status.GetOr(t.status)
    ensures t'.description == (if upd.description.Some? then upd.description else t.description)
    ensures t'.priority == upd.priority.GetOr(t.priority)
  {
    t.(title := upd.title.GetOr(t.title),
       description := if upd.description.Some? then upd.description else t.description,
       status := upd.status.GetOr(t.status),
       priority := upd.priority.GetOr(t.priority),
       updatedBy := Some(editor))
  }

  /** The assignee's edit: a status, when given, is written and the editor recorded as
      the updater; nothing else changes. */
  function EditStatus(t: Task, upd: TaskUpdate, editor: Id): (t': Task)
    ensures upd.status.None? ==> t' == t
    ensures upd.status.Some? ==> t' == t.(status := upd.status.value, updatedBy := Some(editor))
  {
    if upd.status.Some? then t.(status := upd.status.value, updatedBy := Some(editor)) else t
  }

  /** `updateTask`. A MANAGER overwrites every non-null field and is recorded as the
      updater; the assignee USER may set status only, and a request that also names
      another field fails as a whole. */
  function UpdateTask(s: Store, ctx: SecurityContext, id: Id, upd: TaskUpdate)
    : (r: Result<(Store, TaskResponse), Error>)
    ensures FindTask(s.tasks, id).None? ==> r == Err(NotFound("Task"))
    ensures FindTask(s.tasks, id).Some? && SecurityUtils.GetCurrentUser(ctx, s.users).Err? ==>
      r == Err(SecurityUtils.GetCurrentUser(ctx, s.users).error)
    ensures r.Ok? <==>
      && FindTask(s.tasks, id).Some?
      && SecurityUtils.GetCurrentUser(ctx, s.users).Ok?
      && UpdateAllowed(SecurityUtils.GetCurrentUser(ctx, s.users).value, FindTask(s.tasks, id).value, upd)
    ensures FindTask(s.tasks, id).Some? && SecurityUtils.GetCurrentUser(ctx, s.users).Ok? ==>
      var caller := SecurityUtils.GetCurrentUser(ctx, s.users).value;
      var t := FindTask(s.tasks, id).value;
      && (caller.role == ADMIN ==> r == Err(Forbidden(AdminCannotUpdate)))
      && (caller.role == USER && !IsAssignee(caller, t) ==> r == Err(Forbidden(UpdateDenied)))
      && (caller.role == USER && IsAssignee(caller, t) && TouchesNonStatus(upd) ==> r == Err(Forbidden(StatusOnly)))
    ensures r.Ok? ==>
      var caller := SecurityUtils.GetCurrentUser(ctx, s.users).value;
      var t := FindTask(s.tasks, id).value;
      var t' := FindTask(r.value.0.tasks, id);
      && t'.Some?
      && t'.value.id == t.id && t'.value.createdBy == t.createdBy && t'.value.assignedTo == t.assignedTo
      && t'.value.createdAt == t.createdAt
      && t'.value.title == upd.title.GetOr(t.title)
      && t'.value.description == (if upd.description.Some? then upd.description else t.description)
      && t'.value.status == upd.status.GetOr(t.status)
      && t'.value.priority == upd.priority.GetOr(t.priority)
      && (caller.role == MANAGER || upd.status.Some? ==> t'.value.updatedBy == Some(caller.id))
      && (caller.role == USER && upd.status.None? ==> t' == Some(t))
      && r.value.1 == ToResponseDTO(t'.value, s.users)
    ensures r.Ok? ==> forall k :: k != id ==> FindTask(r.value.0.tasks, k) == FindTask(s.tasks, k)
    ensures r.Ok? ==>
      (r.value.0.users == s.users && r.value.0.comments == s.comments && r.value.0.nextTaskId == s.nextTaskId)
  {
    match FindTask(s.tasks, id)
    case None => Err(NotFound("Task"))
    case Some(task) =>
      var caller :- SecurityUtils.GetCurrentUser(ctx, s.users);
      match caller.role
      case ADMIN => Err(Forbidden(AdminCannotUpdate))
      case MANAGER =>
        var t' := EditByManager(task, upd, caller.id);
        Ok((SaveTask(s, t'), ToResponseDTO(t', s.users)))
      case USER =>
        if !(task.assignedTo.Some? && task.assignedTo.value == caller.id) then Err(Forbidden(UpdateDenied))
        else
          // the status write below is discarded by the rollback when the check after it fails
          var t' := EditStatus(task, upd, caller.id);
          if TouchesNonStatus(upd) then Err(Forbidden(StatusOnly))
          else Ok((SaveTask(s, t'), ToResponseDTO(t', s.users)))
  }

  /** A status-less update by the assignee saves the task as it was: the store is unchanged. */
  lemma EmptyUserUpdateChangesNothing(s: Store, ctx: SecurityContext, id: Id)
    requires UpdateTask(s, ctx, id, TaskUpdate(None, None, None, None)).Ok?
    requires SecurityUtils.GetCurrentUser(ctx, s.users).value.role == USER
    ensures UpdateTask(s, ctx, id, TaskUpdate(None, None, None, None)).value.0 == s
  {
    var t := FindTask(s.tasks, id).value;
    SaveFoundRow(s.tasks, TaskId, t);
  }

  /** An assignee USER sending status DONE together with a new title is refused as a
      whole, so neither the title nor the status changes. */
  lemma MixedUserUpdateRejected(s: Store, ctx: SecurityContext, id: Id)
    requires FindTask(s.tasks, id).Some?
    requires SecurityUtils.GetCurrentUser(ctx, s.users).Ok?
    requires SecurityUtils.GetCurrentUser(ctx, s.users).value.role == USER
    requires IsAssignee(SecurityUtils.GetCurrentUser(ctx, s.users).value, FindTask(s.tasks, id).value)
    ensures UpdateTask(s, ctx, id, TaskUpdate(Some("x"), None, Some(DONE), None)) == Err(Forbidden(StatusOnly))
  {
  }

  // ---------------------------------------------------------------- listing

  /** The optional filters of the task queries: an absent filter admits every task. */
  predicate MatchesTaskFilters(t: Task, status: Option<TaskStatus>, priority: Option<TaskPriority>, assignee: Option<Id>) {
    (status.None? || t.status == status.value)
    && (priority.None? || t.priority == priority.value)
    && (assignee.None? || t.assignedTo == assignee)
  }

  /** The tasks in the caller's listing: `findByFilters` for ADMIN and MANAGER, and for a
      USER `findByAssignedToAndFilters`, which drops the assignee filter. */
  function VisibleTasks(tasks: seq<Task>, caller: User, status: Option<TaskStatus>,
                        priority: Option<TaskPriority>, assignee: Option<Id>): (r: seq<Task>)
    ensures forall t :: t in r <==>
      (t in tasks && MayViewTask(caller, t)
       && MatchesTaskFilters(t, status, priority, if caller.role == USER then None else assignee))
    ensures caller.role != USER && status.None? && priority.None? && assignee.None? ==> r == tasks
  {
    if caller.role == ADMIN || caller.role == MANAGER then
      var p := (t: Task) => MatchesTaskFilters(t, status, priority, assignee);
      if status.None? && priority.None? && assignee.None? then
        FilterAll(tasks, p);
        Filter(tasks, p)
      else
        Filter(tasks, p)
    else
      Filter(tasks, (t: Task) => t.assignedTo == Some(caller.id) && MatchesTaskFilters(t, status, priority, None))
  }

  /** The page content mapped to response DTOs, in order. */
  function ToResponses(ts: seq<Task>, users: seq<User>): (r: seq<TaskResponse>)
    ensures |r| == |ts|
    ensures forall i :: 0 <= i < |ts| ==> r[i] == ToResponseDTO(ts[i], users)
  {
    seq(|ts|, i requires 0 <= i < |ts| => ToResponseDTO(ts[i], users))
  }

  /** `getAllTasks`: the tasks the caller may see that match the filters, as DTOs. */
  function GetAllTasks(s: Store, ctx: SecurityContext, status: Option<TaskStatus>,
                       priority: Option<TaskPriority>, assignee: Option<Id>)
    : (r: Result<seq<TaskResponse>, Error>)
    ensures SecurityUtils.GetCurrentUser(ctx, s.users).Err? ==> r == Err(SecurityUtils.GetCurrentUser(ctx, s.users).error)
    ensures r.Ok? ==> SecurityUtils.GetCurrentUser(ctx, s.users).Ok?
    ensures r.Ok? ==>
      var caller := SecurityUtils.GetCurrentUser(ctx, s.users).value;
      var effective := if caller.role == USER then None else assignee;
      && (forall t :: t in s.tasks && MayViewTask(caller, t) && MatchesTaskFilters(t, status, priority, effective)
            ==> ToResponseDTO(t, s.users) in r.value)
      && (forall d :: d in r.value ==> exists t ::
            (t in s.tasks && MayViewTask(caller, t)
             && MatchesTaskFilters(t, status, priority, effective) && d == ToResponseDTO(t, s.users)))
    ensures (r.Ok? && SecurityUtils.GetCurrentUser(ctx, s.users).value.role != USER
             && status.None? && priority.None? && assignee.None?)
      ==> r.value == ToResponses(s.tasks, s.users)
  {
    var caller :- SecurityUtils.GetCurrentUser(ctx, s.users);
    var visible := VisibleTasks(s.tasks, caller, status, priority, assignee);
    var out := ToResponses(visible, s.users);
    assert forall t :: t in visible ==> ToResponseDTO(t, s.users) in out by {
      forall t | t in visible ensures ToResponseDTO(t, s.users) in out {
        var i :| 0 <= i < |visible| && visible[i] == t;
        assert out[i] == ToResponseDTO(t, s.users);
      }
    }
    assert forall d :: d in out ==> exists t :: t in visible && d == ToResponseDTO(t, s.users) by {
      forall d | d in out ensures exists t :: t in visible && d == ToResponseDTO(t, s.users) {
        var i :| 0 <= i < |out| && out[i] == d;
        assert visible[i] in visible;
      }
    }
    Ok(out)
  }
}

=== FILE: user_controller.dfy ===
/** The user endpoints: listing for ADMIN or MANAGER, role and status changes for
    ADMIN only, and the caller's own profile and password for anyone authenticated. */
module UserController {
  import opened Wrappers
  import opened Domain
  import opened Mappers
  import opened ExceptionHandler
  import opened Endpoints
  import UserService

  const ListRetrieved := "Users retrieved successfully"
  const ProfileRetrieved := "Profile retrieved successfully"
  const RoleUpdated := "User role updated successfully"
  const Activated := "User activated successfully"
  const Deactivated := "User deactivated successfully"

  /** The email of the request's identity. Reading the name of a missing authentication
      throws a null-pointer exception, which carries no message: it is modelled as an
      unexpected error with an empty message, which the handler never shows anyway. */
  function CallerEmail(ctx: SecurityContext): (r: Result<string, Error>)
    ensures r.Ok? <==> ctx.Some?
    ensures r.Ok? ==> r.value == ctx.value.name
  {
    if ctx.None? then Err(Unexpected("")) else Ok(ctx.value.name)
  }

  /** GET /api/users: ADMIN or MANAGER; no filters are passed on. */
  function GetAllUsers(s: Store, ctx: SecurityContext): (out: Response<UserService.UserPage>)
    ensures out.store == s
    ensures !(HasRole(ctx, ADMIN) || HasRole(ctx, MANAGER)) ==> out.reply == Handle(AccessDenied)
    ensures out.reply.body.success <==>
      (HasRole(ctx, ADMIN) || HasRole(ctx, MANAGER)) && UserService.GetAllUsers(s, ctx, None, None).Ok?
    ensures out.reply.body.success ==> out.reply.body.data == Some(UserService.GetAllUsers(s, ctx, None, None).value)
    ensures (HasRole(ctx, ADMIN) || HasRole(ctx, MANAGER)) && !out.reply.body.success ==>
      out.reply == Handle(UserService.GetAllUsers(s, ctx, None, None).error)
  {
    if !(HasRole(ctx, ADMIN) || HasRole(ctx, MANAGER)) then Denied(s)
    else Read(s, UserService.GetAllUsers(s, ctx, None, None), ListRetrieved)
  }

  /** GET /api/users/me: the profile of the identity's email. */
  function GetCurrentUserProfile(s: Store, ctx: SecurityContext): (out: Response<UserProfileDTO>)
    ensures out.store == s
    ensures out.reply.body.success <==> ctx.Some? && UserService.GetUserProfile(s.users, ctx.value.name).Ok?
    ensures out.reply.body.success ==>
      out.reply.body.data == Some(UserService.GetUserProfile(s.users, ctx.value.name).value)
      && out.reply.body.data.value.email == ctx.value.name
    ensures ctx.None? ==> out.reply == Handle(Unexpected(""))
    ensures ctx.Some? && !out.reply.body.success ==>
      out.reply == Handle(UserService.GetUserProfile(s.users, ctx.value.name).error)
  {
    match CallerEmail(ctx)
    case Err(e) => Response(s, Handle(e))
    case Ok(email) => Read(s, UserService.GetUserProfile(s.users, email), ProfileRetrieved)
  }

  /** PUT /api/users/me/password: the service's message is the reply's message. */
  function UpdatePassword(s: Store, ctx: SecurityContext, enc: UserService.PasswordEncoder,
                          currentPassword: string, newPassword: string)
    : (out: Response<()>)
    ensures out.reply.body.success <==>
      ctx.Some? && UserService.UpdatePassword(s, enc, ctx.value.name, currentPassword, newPassword).Ok?
    ensures out.reply.body.success ==>
      var r := UserService.UpdatePassword(s, enc, ctx.value.name, currentPassword, newPassword).value;
      out.store == r.0 && out.reply == Reply(200, ApiResponse(true, r.1, None, None))
    ensures !out.reply.body.success ==> out.store == s
    ensures ctx.None? ==> out.reply == Handle(Unexpected(""))
    ensures ctx.Some? && !out.reply.body.success ==>
      out.reply == Handle(UserService.UpdatePassword(s, enc, ctx.value.name, currentPassword, newPassword).error)
  {
    match CallerEmail(ctx)
    case Err(e) => Response(s, Handle(e))
    case Ok(email) =>
      match UserService.UpdatePassword(s, enc, email, currentPassword, newPassword)
      case Ok((s', message)) => Response(s', Reply(200, ApiResponse(true, message, None, None)))
      case Err(e) => Response(s, Handle(e))
  }

  /** PUT /api/users/{id}/role: ADMIN only. */
  function UpdateUserRole(s: Store, ctx: SecurityContext, id: Id, newRole: Role): (out: Response<UserAdminDTO>)
    ensures !HasRole(ctx, ADMIN) ==> out == Response(s, Handle(AccessDenied))
    ensures out.reply.body.success <==> HasRole(ctx, ADMIN) && UserService.UpdateUserRole(s, id, newRole).Ok?
    ensures out.reply.body.success ==>
      var r := UserService.UpdateUserRole(s, id, newRole).value;
      out.store == r.0 && out.reply.body.data == Some(r.1) && out.reply.status == 200
    ensures !out.reply.body.success ==> out.store == s
    ensures HasRole(ctx, ADMIN) && !out.reply.body.success ==>
      out.reply == Handle(UserService.UpdateUserRole(s, id, newRole).error)
  {
    if !HasRole(ctx, ADMIN) then Denied(s)
    else Written(s, UserService.UpdateUserRole(s, id, newRole), 200, RoleUpdated)
  }

  /** PUT /api/users/{id}/status: ADMIN only; the message says which way the flag went. */
  function ToggleUserStatus(s: Store, ctx: SecurityContext, id: Id, isActive: bool): (out: Response<UserAdminDTO>)
    ensures !HasRole(ctx, ADMIN) ==> out == Response(s, Handle(AccessDenied))
    ensures out.reply.body.success <==> HasRole(ctx, ADMIN) && UserService.ToggleUserStatus(s, id, isActive).Ok?
    ensures out.reply.body.success ==>
      var r := UserService.ToggleUserStatus(s, id, isActive).value;
      && out.store == r.0 && out.reply.body.data == Some(r.1)
      && out.reply.body.message == (if isActive then Activated else Deactivated)
    ensures !out.reply.body.success ==> out.store == s
    ensures HasRole(ctx, ADMIN) && !out.reply.body.success ==>
      out.reply == Handle(UserService.ToggleUserStatus(s, id, isActive).error)
  {
    if !HasRole(ctx, ADMIN) then Denied(s)
    else Written(s, UserService.ToggleUserStatus(s, id, isActive), 200, if isActive then Activated else Deactivated)
  }

  /** A MANAGER lists users but cannot change anyone's role or status. */
  lemma ManagerListsButCannotAdminister(s: Store, ctx: SecurityContext, id: Id, newRole: Role, isActive: bool)
    requires HasRole(ctx, MANAGER)
    ensures GetAllUsers(s, ctx).reply.body.success <==> UserService.GetAllUsers(s, ctx, None, None).Ok?
    ensures UpdateUserRole(s, ctx, id, newRole) == Response(s, Handle(AccessDenied))
    ensures ToggleUserStatus(s, ctx, id, isActive) == Response(s, Handle(AccessDenied))
  {
  }
}

=== FILE: user_repository.dfy ===
/** The user queries the services rely on, as filters over the users table.
    Paging of the paged forms is left to the caller. */
module UserRepository {
  import opened Wrappers
  import opened Tables
  import opened Domain

  /** `findByEmail`: an optional user with that email. */
  function FindByEmail(users: seq<User>, email: string): (r: Option<User>)
    ensures r.Some? ==> r.value in users && r.value.email == email
    ensures r.None? <==> forall u :: u in users ==> u.email != email
  {
    Find(users, UserEmail, email)
  }

  /** Emails are unique, so the user found is the only one with that email. */
  lemma FindByEmailIsTheOnlyMatch(users: seq<User>, u: User)
    requires UniqueKeys(users, UserEmail)
    requires u in users
    ensures FindByEmail(users, u.email) == Some(u)
  {
    FindUnique(users, UserEmail, u);
  }

  /** `findAllByRoleAndIsActiveTrue`, and the paged `findByRoleAndIsActiveTrue`,
      which runs the same query. */
  function FindAllByRoleAndIsActiveTrue(users: seq<User>, role: Role): (r: seq<User>)
    ensures forall u :: u in r <==> u in users && u.role == role && u.isActive
    ensures |r| <= |users|
  {
    Filter(users, (u: User) => u.role == role && u.isActive)
  }

  /** When every user is active with that role, the query returns the whole table in order. */
  lemma AllActiveOfRole(users: seq<User>, role: Role)
    requires forall u :: u in users ==> u.role == role && u.isActive
    ensures FindAllByRoleAndIsActiveTrue(users, role) == users
  {
    FilterAll(users, (u: User) => u.role == role && u.isActive);
  }

  /** The optional-filter predicate of `findByFilters`: an absent filter admits every user. */
  predicate MatchesFilters(u: User, role: Option<Role>, isActive: Option<bool>) {
    (role.None? || u.role == role.value) && (isActive.None? || u.isActive == isActive.value)
  }

  /** `findByFilters`: users matching the optional role and active filters. */
  function FindByFilters(users: seq<User>, role: Option<Role>, isActive: Option<bool>): (r: seq<User>)
    ensures forall u :: u in r <==>
      u in users && (role.None? || u.role == role.value) && (isActive.None? || u.isActive == isActive.value)
    ensures role.None? && isActive.None? ==> r == users
    ensures role.Some? && isActive == Some(true) ==> r == FindAllByRoleAndIsActiveTrue(users, role.value)
  {
    var p := (u: User) => MatchesFilters(u, role, isActive);
    if role.None? && isActive.None? then
      FilterAll(users, p);
      Filter(users, p)
    else if role.Some? && isActive == Some(true) then
      FilterCongruent(users, p, (u: User) => u.role == role.value && u.isActive);
      Filter(users, p)
    else
      Filter(users, p)
  }
}

=== FILE: user_service.dfy ===
/** The user-administration use cases: listing, role and status changes, the
    caller's own profile and password. */
module UserService {
  import opened Wrappers
  import opened Tables
  import opened Domain
  import opened Mappers
  import SecurityUtils
  import UserRepository

  const WrongCurrentPassword := "Current password is incorrect"
  const PasswordUpdated := "Password updated successfully"

  /** The foreign password encoder: `encode` hashes, `matches(raw, hash)` checks. */
  datatype PasswordEncoder = PasswordEncoder(encode: string -> string, matches: (string, string) -> bool)

  /** A page of users, in the detail the caller's role allows. */
  datatype UserPage = Summaries(summaries: seq<UserSummaryDTO>) | AdminView(details: seq<UserAdminDTO>)

  /** The message of a failed lookup by email. */
  function NoUserWithEmail(email: string): string {
    "User not found with email: " + email
  }

  /** `userRepository.save` of an existing user row. */
  function SaveUser(s: Store, u: User): (s': Store)
    ensures FindUser(s'.users, u.id) == Some(u)
    ensures forall id :: id != u.id ==> FindUser(s'.users, id) == FindUser(s.users, id)
    ensures s'.tasks == s.tasks && s'.comments == s.comments
    ensures s'.nextUserId == s.nextUserId && s'.nextTaskId == s.nextTaskId && s'.nextCommentId == s.nextCommentId
  {
    s.(users := Save(s.users, UserId, u))
  }

  /** `getAllUsers`: a MANAGER gets the active USER-role users as summaries whatever
      the filters say; any other caller gets the filtered users in full detail. */
  function GetAllUsers(s: Store, ctx: SecurityContext, role: Option<Role>, isActive: Option<bool>)
    : (r: Result<UserPage, Error>)
    ensures SecurityUtils.GetCurrentUser(ctx, s.users).Err? ==> r == Err(SecurityUtils.GetCurrentUser(ctx, s.users).error)
    ensures r.Ok? <==> SecurityUtils.GetCurrentUser(ctx, s.users).Ok?
    ensures r.Ok? ==> (r.value.Summaries? <==> SecurityUtils.GetCurrentUser(ctx, s.users).value.role == MANAGER)
    ensures r.Ok? && r.value.Summaries? ==>
      && (forall u :: u in s.users && u.role == USER && u.isActive ==> ToSummaryDTO(u) in r.value.summaries)
      && (forall d :: d in r.value.summaries ==>
            exists u :: u in s.users && u.role == USER && u.isActive && d == ToSummaryDTO(u))
    ensures r.Ok? && r.value.AdminView? ==>
      && (forall u :: u in s.users && UserRepository.MatchesFilters(u, role, isActive) ==> ToAdminDTO(u) in r.value.details)
      && (forall d :: d in r.value.details ==>
            exists u :: u in s.users && UserRepository.MatchesFilters(u, role, isActive) && d == ToAdminDTO(u))
  {
    var caller :- SecurityUtils.GetCurrentUser(ctx, s.users);
    if caller.role == MANAGER then
      var found := UserRepository.FindAllByRoleAndIsActiveTrue(s.users, USER);
      var out := seq(|found|, i requires 0 <= i < |found| => ToSummaryDTO(found[i]));
      assert forall u :: u in found ==> ToSummaryDTO(u) in out by {
        forall u | u in found ensures ToSummaryDTO(u) in out {
          var i :| 0 <= i < |found| && found[i] == u;
          assert out[i] == ToSummaryDTO(u);
        }
      }
      assert forall d :: d in out ==> exists u :: u in found && d == ToSummaryDTO(u) by {
        forall d | d in out ensures exists u :: u in found && d == ToSummaryDTO(u) {
          var i :| 0 <= i < |out| && out[i] == d;
          assert found[i] in found;
        }
      }
      Ok(Summaries(out))
    else
      var found := UserRepository.FindByFilters(s.users, role, isActive);
      var out := seq(|found|, i requires 0 <= i < |found| => ToAdminDTO(found[i]));
      assert forall u :: u in found ==> ToAdminDTO(u) in out by {
        forall u | u in found ensures ToAdminDTO(u) in out {
          var i :| 0 <= i < |found| && found[i] == u;
          assert out[i] == ToAdminDTO(u);
        }
      }
      assert forall d :: d in out ==> exists u :: u in found && d == ToAdminDTO(u) by {
        forall d | d in out ensures exists u :: u in found && d == ToAdminDTO(u) {
          var i :| 0 <= i < |out| && out[i] == d;
          assert found[i] in found;
        }
      }
      Ok(AdminView(out))
  }

  /** A MANAGER's listing does not depend on the filters. */
  lemma ManagerListingIgnoresFilters(s: Store, ctx: SecurityContext, r1: Option<Role>, a1: Option<bool>,
                                     r2: Option<Role>, a2: Option<bool>)
    requires SecurityUtils.GetCurrentUser(ctx, s.users).Ok?
    requires SecurityUtils.GetCurrentUser(ctx, s.users).value.role == MANAGER
    ensures GetAllUsers(s, ctx, r1, a1) == GetAllUsers(s, ctx, r2, a2)
  {
  }

  /** `updateUserRole`: only the role changes; current task assignments are not consulted. */
  function UpdateUserRole(s: Store, id: Id, newRole: Role): (r: Result<(Store, UserAdminDTO), Error>)
    ensures r.Err? <==> FindUser(s.users, id).None?
    ensures r.Err? ==> r.error == NotFound("User")
    ensures r.Ok? ==>
      && FindUser(r.value.0.users, id) == Some(FindUser(s.users, id).value.(role := newRole))
      && r.value.1 == ToAdminDTO(FindUser(s.users, id).value.(role := newRole))
    ensures r.Ok? ==> forall k :: k != id ==> FindUser(r.value.0.users, k) == FindUser(s.users, k)
    ensures r.Ok? ==> r.value.0.tasks == s.tasks && r.value.0.comments == s.comments
  {
    match FindUser(s.users, id)
    case None => Err(NotFound("User"))
    case Some(u) =>
      var u' := u.(role := newRole);
      Ok((SaveUser(s, u'), ToAdminDTO(u')))
  }

  /** Changing a role can leave a task assigned to a user who no longer has role USER:
      the assignment invariant is a property of the assignment paths, not of the store. */
  lemma RoleUpdateCanBreakAssignment()
    ensures
      var u := User(1, "u", "u@example.com", "h", USER, true, 0);
      var t := Task(5, "t", None, OPEN, LOW, None, Some(1), None, 0);
      var s := Store([u], [t], [], 2, 6, 1);
      && AssigneeIsUserRole(t, s.users)
      && UpdateUserRole(s, 1, MANAGER).Ok?
      && !AssigneeIsUserRole(t, UpdateUserRole(s, 1, MANAGER).value.0.users)
  {
    var u := User(1, "u", "u@example.com", "h", USER, true, 0);
    var t := Task(5, "t", None, OPEN, LOW, None, Some(1), None, 0);
    var s := Store([u], [t], [], 2, 6, 1);
    assert u in s.users;
    var s' := UpdateUserRole(s, 1, MANAGER).value.0;
    assert s'.users == [u.(role := MANAGER)];
  }

  /** `getUserProfile`: the profile of the user with that email. */
  function GetUserProfile(users: seq<User>, email: string): (r: Result<UserProfileDTO, Error>)
    ensures r.Err? <==> forall u :: u in users ==> u.email != email
    ensures r.Err? ==> r.error == NotFound(NoUserWithEmail(email))
    ensures r.Ok? ==> exists u :: u in users && u.email == email && r.value == ToProfileDTO(u)
    ensures r.Ok? ==> r.value.email == email
  {
    match UserRepository.FindByEmail(users, email)
    case None => Err(NotFound(NoUserWithEmail(email)))
    case Some(u) => Ok(ToProfileDTO(u))
  }

  /** `updatePassword`: the current password must match the stored hash; the new
      password is stored encoded. */
  function UpdatePassword(s: Store, enc: PasswordEncoder, email: string, currentPassword: string, newPassword: string)
    : (r: Result<(Store, string), Error>)
    ensures UserRepository.FindByEmail(s.users, email).None? ==> r == Err(NotFound(NoUserWithEmail(email)))
    ensures r.Ok? <==>
      UserRepository.FindByEmail(s.users, email).Some?
      && enc.matches(currentPassword, UserRepository.FindByEmail(s.users, email).value.password)
    ensures UserRepository.FindByEmail(s.users, email).Some? && r.Err? ==>
      r == Err(Unauthorized(WrongCurrentPassword))
    ensures r.Ok? ==>
      var u := UserRepository.FindByEmail(s.users, email).value;
      && FindUser(r.value.0.users, u.id) == Some(u.(password := enc.encode(newPassword)))
      && r.value.1 == PasswordUpdated
    ensures r.Ok? ==> forall k :: k != UserRepository.FindByEmail(s.users, email).value.id ==>
      FindUser(r.value.0.users, k) == FindUser(s.users, k)
    ensures r.Ok? ==> r.value.0.tasks == s.tasks && r.value.0.comments == s.comments
  {
    match UserRepository.FindByEmail(s.users, email)
    case None => Err(NotFound(NoUserWithEmail(email)))
    case Some(u) =>
      if !enc.matches(currentPassword, u.password) then Err(Unauthorized(WrongCurrentPassword))
      else Ok((SaveUser(s, u.(password := enc.encode(newPassword))), PasswordUpdated))
  }

  /** `toggleUserStatus`: only the active flag changes. */
  function ToggleUserStatus(s: Store, id: Id, isActive: bool): (r: Result<(Store, UserAdminDTO), Error>)
    ensures r.Err? <==> FindUser(s.users, id).None?
    ensures r.Err? ==> r.error == NotFound("User")
    ensures r.Ok? ==>
      && FindUser(r.value.0.users, id) == Some(FindUser(s.users, id).value.(isActive := isActive))
      && r.value.1 == ToAdminDTO(FindUser(s.users, id).value.(isActive := isActive))
      && r.value.1.isActive == isActive
    ensures r.Ok? ==> forall k :: k != id ==> FindUser(r.value.0.users, k) == FindUser(s.users, k)
    ensures r.Ok? ==> r.value.0.tasks == s.tasks && r.value.0.comments == s.comments
  {
    match FindUser(s.users, id)
    case None => Err(NotFound("User"))
    case Some(u) =>
      var u' := u.(isActive := isActive);
      Ok((SaveUser(s, u'), ToAdminDTO(u')))
  }

  /** Deactivating a USER removes them from the automatic strategies' candidates. */
  lemma DeactivatedUserIsNoCandidate(s: Store, id: Id)
    requires UniqueKeys(s.users, UserId)
    requires ToggleUserStatus(s, id, false).Ok?
    ensures var users' := ToggleUserStatus(s, id, false).value.0.users;
      forall u :: u in UserRepository.FindAllByRoleAndIsActiveTrue(users', USER) ==> u.id != id
  {
    var u0 := FindUser(s.users, id).value;
    var users' := ToggleUserStatus(s, id, false).value.0.users;
    SaveKeepsKeysUnique(s.users, UserId, u0.(isActive := false));
    forall u | u in users' && u.id == id ensures !u.isActive {
      FindUnique(users', UserId, u);
    }
  }
}

=== FILE: wrappers.dfy ===
/** Optional values and failure-carrying results, used in place of Java's
    nullable references and thrown exceptions. */
module Wrappers {

  /** A nullable reference: `None` stands for Java's `null`. */
  datatype Option<+T> = None | Some(value: T) {

    /** The wrapped value, or `default` when there is none. */
    function GetOr(default: T): T {
      match this
      case Some(v) => v
      case None => default
    }
  }

  /** Either a value or the error an operation raised instead. Usable with `:-`. */
  datatype Result<+T, +E> = Ok(value: T) | Err(error: E) {

    predicate IsFailure() {
      Err?
    }

    function PropagateFailure<U>(): Result<U, E>
      requires Err?
    {
      Err(error)
    }

    function Extract(): T
      requires Ok?
    {
      value
    }
  }
}
